=== FILE: README.md ===
# fulljs front-end core, modelled in Dafny

This project models the client-side core of the fulljs video-analysis chat
application: the REST client (`api`), the token session coordinator
(`useTokenManagement`), the conversation hook with its message polling
(`useChat`) and the two input validators. Every asynchronous step becomes a
pure function. Its inputs are the current state, the clock (`now`, in
milliseconds) and what the network did. Its output is the next state plus
what the returned promise settled to.

Modules, one per file:

- `Types` (`types.dfy`) holds the shared values: `Option`, thrown `Error`s,
  `Result`, chat `Message`s, the opaque `TokenInfo` and uploaded `VideoFile`s.
- `Strings` (`strings.dfy`) holds the JavaScript string operations the code
  relies on:
  - `trim()` with the ECMAScript whitespace set;
  - `startsWith` and `includes`;
  - `${n}` rendering of a status code, with a parser proving it can be read back.
- `Timers` (`timers.dfy`) is the host's interval table, reduced to the set
  of armed interval ids. `OwnedBy` states that a hook's ref holds the only
  interval it has running.
- `Validation` (`validation.dfy`) holds `validateVideoFile` and
  `validateConversationTitle`.
- `Api` (`api.dfy`) has one function per endpoint, except that the three
  plain GET listings share `GetListing`. Each function returns
  the request it sends (or `None` when a local guard throws first) and the
  `Result` its promise settles to. The `fetch` outcome is an input.
- `TokenManagement` (`token_management.dfy`) models:
  - `fetchTokenInfo`: cache-first or forced, with 401 handling, up to three
    retries with 1 s / 2 s / 4 s backoff, and a stale-cache fallback. It
    also has an iterative form proved equal to the recursive one.
  - `startTokenUpdates`, the 60-second refresh tick, and `stopTokenUpdates`.
  - The request outcomes: `replies[i]` is how the i-th request of a call
    ended.
- `Chat` (`chat.dfy`) models `startPolling`, `stopPolling` and
  `sendMessage`. The poll callback is split at its `await`:
  - `BeginTick` is the interval firing, with its in-flight flag and
    empty-id check;
  - `FinishTickAsWritten` is the request settling as the code performs it.
    It appends the fetched messages that are missing from the log the
    closure captured when polling started. `Tick` is the whole callback
    built on it.
  - `FinishTick` and `TickCorrected` are the corrected settling and
    callback described under "## Findings". They filter against the log as
    it is when the response arrives.

## Model

| member | source | states |
|---|---|---|
| Strings.Trim | src/utils/validation.ts:6 | `trim()` leaves nothing exactly when the input is all whitespace. A non-empty result starts and ends with a visible character. |
| Strings.TrimPlacement | src/services/api.ts:150 | The trimmed text sits in the input right after the leading whitespace, with only whitespace after it. Trimming removes nothing else. |
| Strings.TrimIgnoresPadding | src/services/api.ts:145-150 | Surrounding a string with whitespace on either side does not change what `trim()` returns. |
| Strings.TrimStartDropsWhitespacePrefix | src/services/api.ts:150 | Trimming the start ignores any all-whitespace prefix. |
| Strings.TrimEndDropsWhitespaceSuffix | src/services/api.ts:150 | Trimming the end ignores any all-whitespace suffix. |
| Strings.TrimStartKeepsSuffix | src/services/api.ts:150 | For an all-whitespace `b`, trimming the start of `s + b` gives the trimmed `s` followed by `b` untouched. The exception is an all-whitespace `s`: then `b` is removed too and the result is empty. |
| Strings.Includes | src/services/api.ts:111-112 | The scan answers true exactly when the pattern occurs at some offset of the message. |
| Strings.StartsWithContains | src/services/api.ts:106-111 | A string that starts with a pattern includes it. |
| Strings.NatToString | src/hooks/useTokenManagement.ts:53 | A status code renders as at least one decimal digit, with no leading zero. |
| Strings.ParseNatToString | src/hooks/useTokenManagement.ts:53 | Reading the rendered digits back gives the number: the rendering loses nothing. |
| Strings.NatToStringInjective | src/hooks/useTokenManagement.ts:53 | Different status codes give different error texts. |
| Timers.Arm | src/hooks/useChat.ts:21 | `setInterval` hands out an id that is not already armed, and the table stays well formed. |
| Timers.Clear | src/hooks/useChat.ts:55-57 | `clearInterval` disarms exactly that id. Clearing an id that is not armed changes nothing. |
| Timers.Rearm | src/hooks/useTokenManagement.ts:106-112 | Clearing the ref's interval and arming a new one leaves only the new one armed. That id was not armed before. |
| Timers.OwnedByArmsAtMostOne | src/hooks/useChat.ts:12 | A hook whose ref owns its intervals never has two running. |
| Validation.ValidateVideoFile | src/utils/validation.ts:1-3 | A file is accepted iff its MIME type is "video/" followed by anything. |
| Validation.VideoAcceptsEverySubtype | src/utils/validation.ts:2 | Every subtype under "video/" is accepted, whatever the file name. |
| Validation.VideoPrefixIsExact | src/utils/validation.ts:2 | The test is case-sensitive and needs the slash: "VIDEO/mp4", "video" and "audio/video" are refused, while "video/mp4" is accepted. |
| Validation.ValidateConversationTitle | src/utils/validation.ts:5-7 | A title is accepted iff it has a character other than whitespace. The empty title is refused. |
| Validation.TitleVerdictIgnoresPadding | src/utils/validation.ts:6 | Leading and trailing whitespace never change the verdict. |
| Validation.WhitespaceTitlesRejected | src/utils/validation.ts:6 | A title made only of whitespace is refused. |
| Api.OrElse | src/services/api.ts:87 | `v \|\| fallback` gives the value when it is a non-empty string, and the fallback otherwise. |
| Api.ReadJson | src/services/api.ts:108 | `response.json()` resolves iff the body parses. A parse failure rejects with the parser's message. |
| Api.ExpectOk | src/services/api.ts:85-89 | A rejected fetch propagates unchanged. A 2xx response resolves to its body. A non-2xx response whose body parses throws its non-empty `detail` when it has one, otherwise the endpoint's fallback text. A non-2xx response whose body does not parse (an HTML error page, say) throws the parse error. |
| Api.ExpectOkSucceedsOnlyOn2xx | src/services/api.ts:94-98 | These endpoints resolve iff the response was 2xx and its body was readable. |
| Api.ExpectOkErrorNeverEmpty | src/services/api.ts:96 | A failed response with a JSON body never produces an error with an empty message. |
| Api.RejectDetail | src/services/api.ts:179-189 | A body carrying a non-empty `detail` becomes that error. Any other readable body resolves, whatever the status. A body that does not parse throws the parse error, and a rejected fetch propagates. |
| Api.CheckAuth | src/services/api.ts:24-33 | Requests `/auth_status` and never rejects. A rejected fetch or an unreadable body answers false. A readable body answers its `authenticated` field, whatever the status. So the answer is true only when a body with `authenticated: true` came back. |
| Api.CheckAuthIgnoresStatus | src/services/api.ts:26-28 | The answer depends on the body alone, not on the status. |
| Api.Login | src/services/api.ts:35-50 | Posts the e-mail and password. Any non-2xx response throws "Login failed". A 2xx response resolves to its body. |
| Api.LoginHidesServerMessage | src/services/api.ts:45-47 | Two failed login responses give the caller the same error, whatever their bodies say. |
| Api.Signup | src/services/api.ts:52-68 | Posts the credentials. A non-2xx response whose body parses throws the server's `message`, or "Signup failed". One whose body does not parse throws the parse error. A 2xx response follows ReadJson. A rejection propagates. |
| Api.SignupSurfacesWhatLoginHides | src/services/api.ts:45-47 | Two failed responses with different non-empty `message`s make signup throw different errors, while login throws the same one for both. |
| Api.SignupErrorNeverEmpty | src/services/api.ts:62-65 | A failed signup whose body is readable throws a non-empty message: the server's `message` only when it is non-empty. |
| Api.Logout | src/services/api.ts:70-75 | Resolves to whether the status was 2xx. |
| Api.LogoutIgnoresBody | src/services/api.ts:71-74 | The body is never read: two responses with the same status resolve alike, even when a body cannot be parsed. |
| Api.CreateConversation | src/services/api.ts:77-90 | Posts the title exactly as given. Failures follow ExpectOk with "Failed to create conversation". |
| Api.CreateConversationHasNoGuard | src/services/api.ts:77-79 | An empty or blank title is still sent as given, where a title update with it sends nothing. |
| Api.CreateKeepsPaddingUpdateTrims | src/services/api.ts:79 | For a valid title, creating sends it untrimmed while updating sends it trimmed. The two forms agree iff the title has no surrounding whitespace. |
| Api.GetListing | src/services/api.ts:92-99 | One member for the three plain GET endpoints: `getConversations` here and the two histories at lines 192-208. Each resolves iff a 2xx response with a readable body came back, and then to that body. A rejection propagates. A non-2xx response whose body parses throws the server's `detail`, or the endpoint's own text. One whose body does not parse throws the parse error. |
| Api.SwallowedWhilePolling | src/services/api.ts:111-112 | The catch test: an error is swallowed iff its message contains "Failed to fetch" or "conversation not found". Every message starting with "Failed to fetch" is swallowed. |
| Api.GetConversationMessages | src/services/api.ts:101-117 | A 2xx response resolves to its parsed body, and a parse failure of that body is rejected unfiltered, since `response.json()` is returned without being awaited inside the `try`. A rejected fetch or a non-2xx response whose error mentions "Failed to fetch" or "conversation not found" becomes `{ messages: [] }`. Any other such error is rethrown unchanged and mentions neither phrase. |
| Api.OkReplyParseFailureEscapes | src/services/api.ts:108 | A 2xx response whose body fails to parse with "Failed to fetch" still rejects with that message, although the filter would swallow it. |
| Api.NonOkWithoutDetailIsSwallowed | src/services/api.ts:104-115 | A non-2xx response without `detail` always ends as an empty message list. Its default error text itself contains "Failed to fetch". |
| Api.OtherDetailIsRethrown | src/services/api.ts:111-113 | A server `detail` that mentions neither phrase reaches the caller. |
| Api.VideoFields | src/services/api.ts:126-128 | One "videos" entry per file, in order. |
| Api.SendMessageForm | src/services/api.ts:120-128 | The form holds "message", then "conversation_id" only when the id is non-empty, then the videos. "conversation_id" appears nowhere else. |
| Api.SendMessage | src/services/api.ts:119-141 | Posts that form to `/send_message`. Failures follow ExpectOk with "Failed to send message". |
| Api.PostsResolveOnlyOn2xx | src/services/api.ts:85-89 | createConversation and sendMessage resolve iff a 2xx response with a readable body came back, and then to that body. |
| Api.TitleRejected | src/services/api.ts:145 | The inline guard refuses a title iff every character of it is whitespace, the empty title included. |
| Api.UpdateConversationTitle | src/services/api.ts:143-167 | No request is sent iff the validator refuses the title, and the call then throws "Title cannot be empty". Otherwise the trimmed title is sent with PUT. A readable body fails iff it carries a non-empty `detail`. A body that does not parse throws the parse error. |
| Api.TitleGuardMatchesValidator | src/services/api.ts:145 | The inline guard `!title \|\| !title.trim()` refuses exactly the titles the validator refuses. |
| Api.SentTitleIsTrimmed | src/services/api.ts:150 | The title that reaches the server has nothing left for `trim()` to remove. |
| Api.DeleteConversation | src/services/api.ts:169-190 | An empty id throws "Invalid conversation ID" without a request. Otherwise the call sends DELETE. A readable body fails iff it carries a non-empty `detail`. A body that does not parse throws the parse error. |
| Api.ErrorStatusWithoutDetailResolves | src/services/api.ts:156-162 | An error status whose body has no `detail` still resolves, for both title updates and deletions. |
| Api.ListingsAreDistinct | src/services/api.ts:192-208 | The conversation list, the chat history and the video-analysis history each have their own path and their own failure text. |
| Api.CheckHealth | src/services/api.ts:210-222 | Never rejects. True iff a body came back whose `status` is "healthy", whatever the HTTP status. |
| Api.CheckHealthIgnoresStatus | src/services/api.ts:212-214 | The answer depends on the body alone: an error status with a healthy body reports healthy. |
| TokenManagement.ClassifyAttempt | src/hooks/useTokenManagement.ts:45-73 | The outcome decides the branch: 401 → unauthorized; 2xx with a readable body → success. An abort → "Request timed out". Any other non-2xx → "Failed to fetch token information: " plus the status. A 2xx whose body does not parse → the parse error's message. A network failure keeps its own message. |
| TokenManagement.HttpErrorCarriesStatus | src/hooks/useTokenManagement.ts:52-54 | The error left by an HTTP failure is the fixed prefix followed by digits that read back as the status. |
| TokenManagement.ClassifyAll | src/hooks/useTokenManagement.ts:37-54 | Classifies each request outcome in order, one reply per outcome. |
| TokenManagement.BackoffDelay | src/hooks/useTokenManagement.ts:79 | The wait before the retry that raised the counter to n is RETRY_DELAY · 2^(n−1). |
| TokenManagement.BackoffFromZero | src/hooks/useTokenManagement.ts:5-6 | From a zero counter the waits are 1000, 2000 and 4000 ms. |
| TokenManagement.CacheFresh | src/hooks/useTokenManagement.ts:24-25 | The cache answers only when the fetch is not forced, the cache holds data, and it was written less than CACHE_DURATION ms ago. |
| TokenManagement.StaleCacheStaysStale | src/hooks/useTokenManagement.ts:24-25 | Once the cache has expired it stays expired at every later time until it is written again. |
| TokenManagement.Settle | src/hooks/useTokenManagement.ts:47-93 | The request that ends a call sends one request, waits for nothing, clears `isLoading`, and never raises the counter. |
| TokenManagement.FetchTokenInfo | src/hooks/useTokenManagement.ts:22-94 | A call sends no request iff the cache is fresh and the fetch is not forced. With the counter at c ≤ MAX_RETRIES it sends at most 1 + MAX_RETRIES − c requests, since a retry happens only below MAX_RETRIES and raises the counter (lines 77-78). |
| TokenManagement.FetchTokenInfoIterative | src/hooks/useTokenManagement.ts:76-82 | The self-call unrolled into a loop computes exactly what the recursive definition does. |
| TokenManagement.CacheHitServesCache | src/hooks/useTokenManagement.ts:23-28 | A fresh cache answers with the cached data and sends no request. Only `tokenInfo` changes. |
| TokenManagement.RetryMissesCache | src/hooks/useTokenManagement.ts:81 | A retry re-enters the function but never takes the cache path, since the cache is unchanged and time only moves on. |
| TokenManagement.EarlierRepliesFailed | src/hooks/useTokenManagement.ts:76-82 | Every request of a call before its last one failed. Only failures are retried. |
| TokenManagement.EndsInSuccess | src/hooks/useTokenManagement.ts:56-66 | When the last reply succeeds, the call returns the data and caches it stamped with the time after all waits. The counter resets and nothing else changes. |
| TokenManagement.EndsUnauthorized | src/hooks/useTokenManagement.ts:47-50 | When the last reply is a 401, the call returns null and clears authentication and the error. The retries already taken stay counted and the cache is untouched. |
| TokenManagement.EndsInFailure | src/hooks/useTokenManagement.ts:67-90 | When the last reply fails, the call has spent its whole budget and waited the full schedule. It returns the cached data (or null), shows the cache when there is one, records the last error, and leaves the counter at MAX_RETRIES. |
| TokenManagement.DelaysFollowSchedule | src/hooks/useTokenManagement.ts:76-82 | Whatever the replies, the waits of a call are a prefix of the backoff schedule from its starting counter. |
| TokenManagement.FetchSettles | src/hooks/useTokenManagement.ts:91-93 | After a call that sent a request, nothing is loading and the counter is within its bound. |
| TokenManagement.UnauthorizedStopsAtOnce | src/hooks/useTokenManagement.ts:47-50 | A first response with status 401 ends the call after one request, with null, unauthenticated, and no wait. |
| TokenManagement.SuccessRefreshesCache | src/hooks/useTokenManagement.ts:56-66 | A successful first reply stores (data, now), resets the counter and returns the data. |
| TokenManagement.RetriesExhausted | src/hooks/useTokenManagement.ts:76-90 | A run of failures as long as the budget takes every retry, follows the schedule and answers with the stale cache. |
| TokenManagement.FreshCounterBacksOffThreeTimes | src/hooks/useTokenManagement.ts:5-6 | From a fresh counter, four failures send four requests and wait 1000, 2000 and 4000 ms. |
| TokenManagement.ExhaustedCounterDoesNotRetry | src/hooks/useTokenManagement.ts:65 | The counter is reset only by a success. After an exhausted call, the next failing call sends one request and does not retry. |
| TokenManagement.InitialStateValid | src/hooks/useTokenManagement.ts:10-20 | The hook starts with no interval armed and a zero counter. |
| TokenManagement.StartTokenUpdates | src/hooks/useTokenManagement.ts:96-115 | Authenticates, forces a fetch after the 2 s warm-up, then replaces any running refresh interval with one new interval. The invariant holds afterwards and nothing is loading. |
| TokenManagement.UnauthorizedStartStillArmsInterval | src/hooks/useTokenManagement.ts:103-112 | A 401 on the start-up fetch leaves the session unauthenticated, yet the refresh interval is armed. |
| TokenManagement.SuccessfulStartAuthenticates | src/hooks/useTokenManagement.ts:96-112 | A start whose fetch succeeds ends authenticated, with the new data cached at the time after the warm-up. |
| TokenManagement.RefreshTick | src/hooks/useTokenManagement.ts:110-112 | A firing performs a cache-first fetch. The interval stays armed and the invariant holds. |
| TokenManagement.StopTokenUpdates | src/hooks/useTokenManagement.ts:117-124 | Unauthenticates, disarms the interval and forgets `tokenInfo`. Nothing else in the session changes: the cache, counter, error and `isLoading` are kept. |
| TokenManagement.StopKeepsCacheServing | src/hooks/useTokenManagement.ts:117-124 | Because stopping keeps the cache, a cache-first fetch soon after serves the old data without a request. |
| TokenManagement.StopIsIdempotent | src/hooks/useTokenManagement.ts:117-124 | Stopping twice is the same as stopping once. |
| Chat.NewMessages | src/hooks/useChat.ts:29-35 | The filter never returns more messages than were fetched. |
| Chat.NewMessagesMembers | src/hooks/useChat.ts:29-35 | A message survives the filter iff it was fetched and the log has no entry with the same timestamp and content. |
| Chat.NewMessagesAppend | src/hooks/useChat.ts:29-38 | Filtering works message by message: filtering a concatenation concatenates the filtered parts. So the new messages keep the order in which they were received. |
| Chat.TypeIsIgnored | src/hooks/useChat.ts:30-33 | A log entry differing from a fetched message only in its type still hides it. |
| Chat.AllKnownAddsNothing | src/hooks/useChat.ts:29-35 | A batch the log already knows entirely yields nothing. |
| Chat.RepollAddsNothing | src/hooks/useChat.ts:29-38 | Once the filtered batch is appended, the same batch yields nothing new. |
| Chat.NewMessagesUnique | src/hooks/useChat.ts:29-35 | A batch without repeated keys stays without repeated keys after filtering. |
| Chat.AppendNewKeepsUnique | src/hooks/useChat.ts:37-38 | Appending the filtered batch to a log without repeated keys keeps it without repeated keys. |
| Chat.InitialChatValid | src/hooks/useChat.ts:9-13 | The hook starts with an empty log and no interval, so its ref owns every running interval. |
| Chat.StartPolling | src/hooks/useChat.ts:15-21 | Clears the ref's interval and arms one new interval. The closure captures the log as it is now, with its flag down. Only the interval ref and the timer table change: the log, error, loading flag and timestamp ref are kept. |
| Chat.RestartSilencesOldPoller | src/hooks/useChat.ts:16-18 | Restarting polling means the previous closure never fires again. |
| Chat.BeginTick | src/hooks/useChat.ts:22-25 | A firing sends a request iff no request of this closure is in flight and the conversation id is non-empty. Sending raises the flag. |
| Chat.InFlightBlocksOverlap | src/hooks/useChat.ts:20-25 | While a request is in flight, further firings send nothing. |
| Chat.LoggedPollError | src/hooks/useChat.ts:44-45 | The catch test: an error is logged iff its message contains neither "polling" nor "timeout". A message starting with either word is never logged. |
| Chat.SettleTick | src/hooks/useChat.ts:26-50 | Settling a request whose filter reads a given log lowers the flag. A message array appends, in order, the fetched messages absent from that log, and the timestamp ref moves to the last of them. A response without an array, or with nothing new, changes nothing. An error changes nothing and is logged iff it mentions neither "polling" nor "timeout". The interval, `error` and `isLoading` are never touched. |
| Chat.FinishTickAsWritten | src/hooks/useChat.ts:28-50 | The settling as written: all the clauses of `SettleTick`, with the filter reading the log the closure captured when polling started, while the append goes onto the current log. |
| Chat.FinishTick | src/hooks/useChat.ts:28-50 | The corrected settling of "## Findings": all the clauses of `SettleTick`, with the filter reading the current log. |
| Chat.NewMessagesMoveTimestamp | src/hooks/useChat.ts:37-40 | A firing that fetches messages absent from the captured log moves the timestamp ref to the last of them. A firing with nothing new leaves the hook as it was. |
| Chat.SwallowedErrorsAreSilent | src/hooks/useChat.ts:42-47 | An error the client swallows, from a rejected fetch or a non-2xx reply, reaches neither the log nor the console. The firing only lowers its flag. |
| Chat.RethrownErrorLogging | src/hooks/useChat.ts:42-47 | Every error that reaches the callback is logged exactly when it mentions neither "polling" nor "timeout", and leaves the hook unchanged. This covers a rethrown rejection, a rethrown non-2xx reply and the unfiltered parse failure of a 2xx body. |
| Chat.Tick | src/hooks/useChat.ts:21-51 | The callback as written. A firing of a cleared interval, or while in flight, or without an id, does nothing. Otherwise it sends one request and settles it against the captured log. The interval is never touched. |
| Chat.TickCorrected | src/hooks/useChat.ts:21-51 | The corrected callback of "## Findings": the same guards as `Tick`, but the request is settled against the current log. |
| Chat.TickIsIdempotent | src/hooks/useChat.ts:29-38 | For the corrected callback: polling the same batch twice appends it once. |
| Chat.TickKeepsKeysUnique | src/hooks/useChat.ts:29-38 | For the corrected callback: polling into a log without repeated keys keeps it so, as long as the fetched batch has no repeated key either. The filter checks only against the log, so a batch that repeats a key appends every copy. |
| Chat.StaleSnapshotDuplicates | src/hooks/useChat.ts:29-38 | For the callback as written: from an empty log, two firings that fetch the same message append it twice. |
| Chat.StopPolling | src/hooks/useChat.ts:54-59 | Disarms the ref's interval and clears the ref. The log, error and loading flag are kept. |
| Chat.StopPollingIsIdempotent | src/hooks/useChat.ts:54-59 | Stopping twice is the same as stopping once. |
| Chat.StopSilencesEveryPoller | src/hooks/useChat.ts:54-59 | After stopping, no closure fires. |
| Chat.SendMessage | src/hooks/useChat.ts:61-83 | Posts the message form. On success the user's message is appended after the server answered and the error is cleared. On failure the log is unchanged, the error is "Failed to send message" and the same error is rethrown. Loading ends either way. Nothing else changes: the interval and the timestamp ref are kept. |
| Chat.RejectedSendLeavesNoTrace | src/hooks/useChat.ts:66-79 | A rejected send leaves the log exactly as it was and rethrows the original error. |

## Left out

- Rendering, React state scheduling and the unmount cleanup effects are
  left out. `useTokenManagement.ts` lines 127-133 and `useChat.ts` lines
  85-89 only clear the interval, which `StopPolling` and
  `StopTokenUpdates` already model.
- Real time is left out. The clock is the parameter `now` and a backoff
  wait simply advances it. Request latency is not modelled, so a success
  is stamped with the start time plus the waits.
- The 5-second `AbortController` timer of `fetchTokenInfo` is left out as
  a timer. An abort appears only as the `TimedOut` outcome.
- Request headers are not modelled.
- Console logging is reduced to the `logged` flag of a poll. Logging in
  `checkAuth`, `updateConversationTitle`, `deleteConversation` and
  `checkHealth` does not change what these calls return, so it is left out.
- Thrown values that are not `Error` objects are left out. The code only
  ever throws `Error`s or the platform's rejections, and errors are
  reduced to their message.
- A JSON body of `null` and non-object JSON values are left out. A body is
  modelled as the fields the client reads, with absent and non-array
  values as `None`.
- `MAX_POLL_INTERVAL` is declared in `useChat.ts` and never used, so it is
  left out.
- The interval periods are left out: 1000 ms for polling and 60000 ms for
  the token refresh. The timer table records only which intervals are
  armed, and each firing is an explicit step (`Tick`, `RefreshTick`).
- Several polling closures running at once are not modelled. Each closure
  has its own in-flight flag, and `Tick` settles each request before the
  next firing.
- TokenManagement.FetchTokenInfo: the caller supplies at least as many
  request outcomes as the call may use (`AttemptBudget`). The source has
  no such bound. It is simply the most requests one call can make.
- TokenManagement.FetchTokenInfo: its own contract states only how many
  requests it sends. The outcome lemmas `EndsInSuccess`,
  `EndsUnauthorized` and `EndsInFailure` state the resulting state.
- Body fields are assumed to have the types the client expects:
  `detail`, `message` and `status` are strings and `authenticated` is a
  boolean. JavaScript truthiness of other JSON values is not modelled,
  such as an array `detail` (the error shape of FastAPI validation) being
  thrown as `Error(array)`.
- Chat.NewMessages: the contract gives only the length bound. The
  membership property is the lemma `NewMessagesMembers`, which keeps the
  recursive function cheap to verify.

Behaviours of the code the model keeps on purpose:

- `sendMessage` appends the user's message after the server accepted it,
  not before.
- A 401 from the token endpoint keeps the cache. During `startTokenUpdates`
  it still arms the refresh interval.
- `stopTokenUpdates` keeps the cache, so a cache-first fetch right after a
  stop serves the old data.
- Error-message matching is case-sensitive. "Request timed out" does not
  contain "timeout", so a polling error with that message would be logged.
- The backoff wait is written as the table 1000 / 2000 / 4000 ms.
  The contract of `BackoffDelay` ties it to `RETRY_DELAY · 2^(n−1)` on the
  counters the code can reach.
- The 2xx branch of `getConversationMessages` returns `response.json()`
  without awaiting it inside the `try`. A parse failure of a 2xx body is
  therefore not filtered.

## Findings

| source | as written | input that shows it | evidently intended | confidence | as-written member | corrected member |
|---|---|---|---|---|---|---|
| src/hooks/useChat.ts:29-38 | The poll filter compares fetched messages with the `chatHistory` the interval closure captured when `startPolling` ran. Appending later messages does not update that captured log. | Start polling with an empty log. Two ticks each fetch the same one message `m`. The log becomes `[m, m]`. | Filter against the log as it is when the response arrives, so that a message already shown is never appended again. | not executed; high (the closure captures the render's state) | Chat.Tick, Chat.FinishTickAsWritten, Chat.StaleSnapshotDuplicates | Chat.TickCorrected, Chat.FinishTick, Chat.TickIsIdempotent, Chat.TickKeepsKeysUnique |

=== FILE: api.dfy ===
/** The REST client: for each endpoint, the request it issues (if its local
    guards let it issue one) and how it turns the response into a resolved
    value or a thrown error. The network is an input: `FetchOutcome` is what
    `fetch` produced for the request. */
module Api {
  import opened Types
  import opened Strings
  import Validation

  /** The fields of a JSON response body the client reads. */
  datatype Body = Body(
    detail: Option<string>,
    message: Option<string>,
    status: Option<string>,
    authenticated: Option<bool>,
    messages: Option<seq<Message>>)   // None when `messages` is absent or not an array

  /** What `response.json()` yields: a body, or a rejection with the parse error. */
  datatype Json = Object(body: Body) | Unparseable(parseError: string)

  datatype HttpResponse = HttpResponse(status: nat, json: Json) {
    /** `response.ok`: a 2xx status. */
    predicate Ok() { 200 <= status <= 299 }
  }

  /** What the `fetch` promise did: resolve with a response or reject
      (a network failure, e.g. "Failed to fetch"). */
  datatype FetchOutcome = Received(response: HttpResponse) | Rejected(error: Error)

  datatype Method = Get | Post | Put | Delete

  datatype FormValue = Text(text: string) | Attachment(file: VideoFile)

  datatype Request = Request(verb: Method, path: string, form: seq<(string, FormValue)>)

  /** One client call: the request it sent (None when a guard threw first)
      and what the returned promise settled to. */
  datatype Call<+T> = Call(request: Option<Request>, result: Result<T>)

  /** The `{ messages: [] }` that getConversationMessages substitutes for a swallowed error. */
  const NoMessages := Body(None, None, None, None, Some([]))

  /** A JavaScript string is truthy iff it is present and non-empty. */
  predicate Truthy(v: Option<string>) {
    v.Some? && v.value != ""
  }

  /** `v || fallback` on an optional string. */
  function OrElse(v: Option<string>, fallback: string): (r: string)
    ensures Truthy(v) ==> r == v.value
    ensures !Truthy(v) ==> r == fallback
  {
    if Truthy(v) then v.value else fallback
  }

  function ReadJson(response: HttpResponse): (r: Result<Body>)
    ensures r.Ok? <==> response.json.Object?
    ensures r.Ok? ==> r.value == response.json.body
    ensures r.Err? ==> r.error.message == response.json.parseError
  {
    match response.json
    case Object(body) => Ok(body)
    case Unparseable(e) => Err(Error(e))
  }

  /** The pattern shared by most endpoints: a non-OK response throws its
      `detail`, or `fallback` when there is none; an OK one resolves to its body. */
  function ExpectOk(outcome: FetchOutcome, fallback: string): (r: Result<Body>)
    ensures outcome.Rejected? ==> r == Err(outcome.error)
    ensures outcome.Received? && outcome.response.Ok() ==> r == ReadJson(outcome.response)
    ensures outcome.Received? && !outcome.response.Ok() ==>
      r.Err? && (outcome.response.json.Object? ==>
                   r.error.message == OrElse(outcome.response.json.body.detail, fallback))
    ensures outcome.Received? && !outcome.response.Ok() && outcome.response.json.Unparseable? ==>
      r == Err(Error(outcome.response.json.parseError))
  {
    match outcome
    case Rejected(e) => Err(e)
    case Received(response) =>
      if !response.Ok() then
        match ReadJson(response)
        case Err(e) => Err(e)
        case Ok(data) => Err(Error(OrElse(data.detail, fallback)))
      else
        ReadJson(response)
  }

  /** The endpoints built on ExpectOk resolve exactly when a 2xx response
      with a readable body came back; every other outcome is thrown. */
  lemma ExpectOkSucceedsOnlyOn2xx(outcome: FetchOutcome, fallback: string)
    ensures ExpectOk(outcome, fallback).Ok? <==>
      outcome.Received? && outcome.response.Ok() && outcome.response.json.Object?
  {
  }

  /** A non-OK reply with a JSON body never surfaces an empty message: the
      server's `detail` is used only when non-empty. */
  lemma ExpectOkErrorNeverEmpty(response: HttpResponse, fallback: string)
    requires !response.Ok() && response.json.Object? && fallback != ""
    ensures ExpectOk(Received(response), fallback).Err?
    ensures ExpectOk(Received(response), fallback).error.message != ""
  {
  }

  /** `data.detail` set means failure, whatever the status; a body that
      does not parse fails with the parse error. */
  function RejectDetail(outcome: FetchOutcome): (r: Result<Body>)
    ensures outcome.Rejected? ==> r == Err(outcome.error)
    ensures outcome.Received? && outcome.response.json.Unparseable? ==>
      r == Err(Error(outcome.response.json.parseError))
    ensures outcome.Received? && outcome.response.json.Object? ==>
      var body := outcome.response.json.body;
      (Truthy(body.detail) ==> r == Err(Error(body.detail.value)))
      && (!Truthy(body.detail) ==> r == Ok(body))
  {
    match outcome
    case Rejected(e) => Err(e)
    case Received(response) =>
      match ReadJson(response)
      case Err(e) => Err(e)
      case Ok(data) => if Truthy(data.detail) then Err(Error(data.detail.value)) else Ok(data)
  }

  // ---- authentication ----

  /** checkAuth: the `authenticated` field of whatever body came back (the
      status is not looked at); false when the request or parsing failed. */
  function CheckAuth(outcome: FetchOutcome): (r: Call<Option<bool>>)
    ensures r.request == Some(Request(Get, "/auth_status", []))
    ensures r.result.Ok?
    ensures r.result.value == Some(true) ==>
      outcome.Received? && outcome.response.json.Object?
      && outcome.response.json.body.authenticated == Some(true)
    ensures outcome.Rejected? || outcome.response.json.Unparseable? ==> r.result.value == Some(false)
    ensures outcome.Received? && outcome.response.json.Object? ==>
      r.result.value == outcome.response.json.body.authenticated
  {
    var result :=
      match outcome
      case Rejected(_) => Some(false)
      case Received(response) =>
        match response.json
        case Unparseable(_) => Some(false)
        case Object(data) => data.authenticated;
    Call(Some(Request(Get, "/auth_status", [])), Ok(result))
  }

  function Credentials(email: string, password: string): seq<(string, FormValue)> {
    [("email", Text(email)), ("password", Text(password))]
  }

  /** login: any non-OK response fails with "Login failed", whatever the server said. */
  function Login(email: string, password: string, outcome: FetchOutcome): (r: Call<Body>)
    ensures r.request == Some(Request(Post, "/login", Credentials(email, password)))
    ensures outcome.Received? && !outcome.response.Ok() ==> r.result == Err(Error("Login failed"))
    ensures outcome.Received? && outcome.response.Ok() ==> r.result == ReadJson(outcome.response)
    ensures outcome.Rejected? ==> r.result == Err(outcome.error)
  {
    var result :=
      match outcome
      case Rejected(e) => Err(e)
      case Received(response) =>
        if !response.Ok() then Err(Error("Login failed")) else ReadJson(response);
    Call(Some(Request(Post, "/login", Credentials(email, password))), result)
  }

  /** Whatever a failed login response says, the caller sees the same error. */
  lemma LoginHidesServerMessage(email: string, password: string, a: HttpResponse, b: HttpResponse)
    requires !a.Ok() && !b.Ok()
    ensures Login(email, password, Received(a)).result == Login(email, password, Received(b)).result
  {
  }

  /** checkAuth reads only the body: two responses with the same body give
      the same answer whatever their status. */
  lemma CheckAuthIgnoresStatus(a: HttpResponse, b: HttpResponse)
    requires a.json == b.json
    ensures CheckAuth(Received(a)) == CheckAuth(Received(b))
  {
  }

  /** signup: a non-OK response fails with the server's `message`, or "Signup failed". */
  function Signup(email: string, password: string, outcome: FetchOutcome): (r: Call<Body>)
    ensures r.request == Some(Request(Post, "/signup", Credentials(email, password)))
    ensures outcome.Received? && !outcome.response.Ok() && outcome.response.json.Object? ==>
      r.result == Err(Error(OrElse(outcome.response.json.body.message, "Signup failed")))
    ensures outcome.Received? && !outcome.response.Ok() && outcome.response.json.Unparseable? ==>
      r.result == Err(Error(outcome.response.json.parseError))
    ensures outcome.Received? && outcome.response.Ok() ==> r.result == ReadJson(outcome.response)
    ensures outcome.Rejected? ==> r.result == Err(outcome.error)
  {
    var result :=
      match outcome
      case Rejected(e) => Err(e)
      case Received(response) =>
        if !response.Ok() then
          match ReadJson(response)
          case Err(e) => Err(e)
          case Ok(data) => Err(Error(OrElse(data.message, "Signup failed")))
        else
          ReadJson(response);
    Call(Some(Request(Post, "/signup", Credentials(email, password))), result)
  }

  /** signup, unlike login, passes the server's `message` on: two failed
      signups whose bodies carry different non-empty messages throw different
      errors, where the same two responses make login throw the same one. */
  lemma SignupSurfacesWhatLoginHides(email: string, password: string, a: HttpResponse, b: HttpResponse)
    requires !a.Ok() && !b.Ok() && a.json.Object? && b.json.Object?
    requires Truthy(a.json.body.message) && Truthy(b.json.body.message)
    requires a.json.body.message != b.json.body.message
    ensures Login(email, password, Received(a)).result == Login(email, password, Received(b)).result
    ensures Signup(email, password, Received(a)).result != Signup(email, password, Received(b)).result
  {
  }

  /** A failed signup whose body could be read never throws an empty message. */
  lemma SignupErrorNeverEmpty(email: string, password: string, response: HttpResponse)
    requires !response.Ok() && response.json.Object?
    ensures Signup(email, password, Received(response)).result.Err?
    ensures Signup(email, password, Received(response)).result.error.message != ""
  {
  }

  /** logout: resolves to `response.ok`. */
  function Logout(outcome: FetchOutcome): (r: Call<bool>)
    ensures r.request == Some(Request(Post, "/logout", []))
    ensures outcome.Received? ==> r.result == Ok(outcome.response.Ok())
    ensures outcome.Rejected? ==> r.result == Err(outcome.error)
  {
    var result :=
      match outcome
      case Rejected(e) => Err(e)
      case Received(response) => Ok(response.Ok());
    Call(Some(Request(Post, "/logout", [])), result)
  }

  // ---- conversations ----

  /** createConversation sends the title as given: no trimming, no check. */
  function CreateConversation(title: string, outcome: FetchOutcome): (r: Call<Body>)
    ensures r.request == Some(Request(Post, "/conversations", [("title", Text(title))]))
    ensures r.result == ExpectOk(outcome, "Failed to create conversation")
  {
    Call(Some(Request(Post, "/conversations", [("title", Text(title))])),
         ExpectOk(outcome, "Failed to create conversation"))
  }

  /** logout never reads the body: the status alone decides, even when the
      body cannot be parsed. */
  lemma LogoutIgnoresBody(a: HttpResponse, b: HttpResponse)
    requires a.status == b.status
    ensures Logout(Received(a)) == Logout(Received(b))
  {
  }

  /** createConversation has no local guard: even an empty or blank title is
      sent, as given, where updateConversationTitle sends nothing. */
  lemma CreateConversationHasNoGuard(conversationId: string, title: string, outcome: FetchOutcome)
    requires TitleRejected(title)
    ensures CreateConversation(title, outcome).request == Some(Request(Post, "/conversations", [("title", Text(title))]))
    ensures UpdateConversationTitle(conversationId, title, outcome).request.None?
  {
  }

  /** For a valid title, createConversation sends it untrimmed while
      updateConversationTitle sends it trimmed: the two forms agree exactly
      when the title has no surrounding whitespace. */
  lemma CreateKeepsPaddingUpdateTrims(conversationId: string, title: string, outcome: FetchOutcome)
    requires Validation.ValidateConversationTitle(title)
    ensures var created := CreateConversation(title, outcome).request;
      var updated := UpdateConversationTitle(conversationId, title, outcome).request;
      && created.Some? && updated.Some?
      && (created.value.form == updated.value.form <==> Trim(title) == title)
  {
  }

  function MessagesPath(conversationId: string): string {
    "/conversations/" + conversationId + "/messages"
  }

  /** The text getConversationMessages throws for a non-OK reply without `detail`. */
  const MessagesFallback := "Failed to fetch conversation messages"

  /** The errors getConversationMessages treats as expected while polling.
      Every message that starts with "Failed to fetch" is among them. */
  predicate SwallowedWhilePolling(message: string): (swallowed: bool)
    ensures StartsWith(message, "Failed to fetch") ==> swallowed
  {
    assert StartsWith(message, "Failed to fetch") ==> OccursAt(message, "Failed to fetch", 0);
    Contains(message, "Failed to fetch") || Contains(message, "conversation not found")
  }

  /** getConversationMessages: a rejected fetch, or a non-OK response,
      whose error mentions "Failed to fetch" or "conversation not found"
      resolves to `{ messages: [] }`; any other such error is rethrown
      unchanged. The body of a 2xx response is returned without being
      awaited inside the `try`, so its parse failure escapes the filter. */
  function GetConversationMessages(conversationId: string, outcome: FetchOutcome): (r: Call<Body>)
    ensures r.request == Some(Request(Get, MessagesPath(conversationId), []))
    ensures outcome.Received? && outcome.response.Ok() ==> r.result == ReadJson(outcome.response)
    ensures !(outcome.Received? && outcome.response.Ok()) ==>
      var caught := ExpectOk(outcome, MessagesFallback);
      && (SwallowedWhilePolling(caught.error.message) ==> r.result == Ok(NoMessages))
      && (!SwallowedWhilePolling(caught.error.message) ==> r.result == caught)
    ensures r.result.Err? && !(outcome.Received? && outcome.response.Ok()) ==>
      !SwallowedWhilePolling(r.result.error.message)
  {
    var result :=
      if outcome.Received? && outcome.response.Ok() then
        ReadJson(outcome.response)
      else
        var caught := ExpectOk(outcome, MessagesFallback);
        if SwallowedWhilePolling(caught.error.message) then Ok(NoMessages) else caught;
    Call(Some(Request(Get, MessagesPath(conversationId), [])), result)
  }

  /** The filter does not cover the parse of a 2xx body: a parse error that
      itself reads "Failed to fetch" still reaches the caller. */
  lemma OkReplyParseFailureEscapes(conversationId: string, response: HttpResponse)
    requires response.Ok() && response.json == Unparseable("Failed to fetch")
    ensures var r := GetConversationMessages(conversationId, Received(response)).result;
      r == Err(Error("Failed to fetch")) && SwallowedWhilePolling(r.error.message)
  {
    var m := "Failed to fetch";
    assert m[..15] == m;
    StartsWithContains(m, m);
  }

  /** A non-OK response without a usable `detail` is always swallowed: its
      default message itself contains "Failed to fetch". */
  lemma NonOkWithoutDetailIsSwallowed(conversationId: string, response: HttpResponse)
    requires !response.Ok() && response.json.Object? && !Truthy(response.json.body.detail)
    ensures GetConversationMessages(conversationId, Received(response)).result == Ok(NoMessages)
  {
    var m := MessagesFallback;
    assert m[..15] == "Failed to fetch";
    StartsWithContains(m, "Failed to fetch");
  }

  /** A server `detail` that mentions neither phrase surfaces to the caller. */
  lemma OtherDetailIsRethrown(conversationId: string, response: HttpResponse)
    requires !response.Ok() && response.json.Object? && Truthy(response.json.body.detail)
    requires !SwallowedWhilePolling(response.json.body.detail.value)
    ensures GetConversationMessages(conversationId, Received(response)).result
         == Err(Error(response.json.body.detail.value))
  {
  }

  function VideoFields(videos: seq<VideoFile>): (fields: seq<(string, FormValue)>)
    ensures |fields| == |videos|
    ensures forall i :: 0 <= i < |videos| ==> fields[i] == ("videos", Attachment(videos[i]))
  {
    if |videos| == 0 then [] else [("videos", Attachment(videos[0]))] + VideoFields(videos[1..])
  }

  /** The form of sendMessage: "message", then "conversation_id" when the id is
      present and non-empty, then one "videos" entry per file, in order. */
  function SendMessageForm(message: string, videos: seq<VideoFile>, conversationId: Option<string>)
    : (form: seq<(string, FormValue)>)
    ensures var k := if Truthy(conversationId) then 2 else 1;
      && |form| == k + |videos|
      && form[0] == ("message", Text(message))
      && (Truthy(conversationId) ==> form[1] == ("conversation_id", Text(conversationId.value)))
      && (forall i :: 0 <= i < |videos| ==> form[k + i] == ("videos", Attachment(videos[i])))
    ensures forall i :: 1 <= i < |form| && form[i].0 == "conversation_id" ==> i == 1
  {
    var head := [("message", Text(message))]
      + (if Truthy(conversationId) then [("conversation_id", Text(conversationId.value))] else []);
    head + VideoFields(videos)
  }

  function SendMessage(message: string, videos: seq<VideoFile>, conversationId: Option<string>,
                       outcome: FetchOutcome): (r: Call<Body>)
    ensures r.request == Some(Request(Post, "/send_message", SendMessageForm(message, videos, conversationId)))
    ensures r.result == ExpectOk(outcome, "Failed to send message")
  {
    Call(Some(Request(Post, "/send_message", SendMessageForm(message, videos, conversationId))),
         ExpectOk(outcome, "Failed to send message"))
  }

  /** createConversation and sendMessage resolve exactly when a 2xx response
      with a readable body came back, and then to that body. */
  lemma PostsResolveOnlyOn2xx(title: string, message: string, videos: seq<VideoFile>,
                              conversationId: Option<string>, outcome: FetchOutcome)
    ensures var ok := outcome.Received? && outcome.response.Ok() && outcome.response.json.Object?;
      && (CreateConversation(title, outcome).result.Ok? <==> ok)
      && (SendMessage(message, videos, conversationId, outcome).result.Ok? <==> ok)
      && (ok ==> CreateConversation(title, outcome).result == Ok(outcome.response.json.body))
      && (ok ==> SendMessage(message, videos, conversationId, outcome).result == Ok(outcome.response.json.body))
  {
    ExpectOkSucceedsOnlyOn2xx(outcome, "Failed to create conversation");
    ExpectOkSucceedsOnlyOn2xx(outcome, "Failed to send message");
  }

  function ConversationPath(conversationId: string): string {
    "/conversations/" + conversationId
  }

  /** The local check `!title || !title.trim()` of updateConversationTitle. */
  predicate TitleRejected(title: string): (rejected: bool)
    ensures rejected <==> AllWhitespace(title)
  {
    title == "" || Trim(title) == ""
  }

  /** updateConversationTitle: an empty or whitespace-only title throws
      "Title cannot be empty" with no request sent; otherwise the trimmed
      title is sent, and a body carrying `detail` becomes the error. */
  function UpdateConversationTitle(conversationId: string, title: string, outcome: FetchOutcome)
    : (r: Call<Body>)
    ensures r.request.None? <==> !Validation.ValidateConversationTitle(title)
    ensures r.request.None? ==> r.result == Err(Error("Title cannot be empty"))
    ensures r.request.Some? ==>
      && r.request.value == Request(Put, ConversationPath(conversationId), [("title", Text(Trim(title)))])
      && r.result == RejectDetail(outcome)
  {
    if TitleRejected(title) then
      Call(None, Err(Error("Title cannot be empty")))
    else
      Call(Some(Request(Put, ConversationPath(conversationId), [("title", Text(Trim(title)))])),
           RejectDetail(outcome))
  }

  /** The guard and the validator agree on every title. */
  lemma TitleGuardMatchesValidator(title: string)
    ensures TitleRejected(title) <==> !Validation.ValidateConversationTitle(title)
  {
  }

  /** The title that reaches the server has nothing for `trim()` to remove. */
  lemma SentTitleIsTrimmed(conversationId: string, title: string, outcome: FetchOutcome)
    requires Validation.ValidateConversationTitle(title)
    ensures var r := UpdateConversationTitle(conversationId, title, outcome);
      r.request.Some? && exists sent :: r.request.value.form == [("title", Text(sent))] && Trim(sent) == sent
  {
    var t := Trim(title);
    TrimIgnoresPadding([], t, []);
    assert [] + t + [] == t;
  }

  /** deleteConversation: an empty id throws "Invalid conversation ID" with
      no request sent; a body carrying `detail` becomes the error. */
  function DeleteConversation(conversationId: string, outcome: FetchOutcome): (r: Call<Body>)
    ensures r.request.None? <==> conversationId == ""
    ensures conversationId == "" ==> r.result == Err(Error("Invalid conversation ID"))
    ensures conversationId != "" ==>
      r.request == Some(Request(Delete, ConversationPath(conversationId), []))
      && r.result == RejectDetail(outcome)
  {
    if conversationId == "" then
      Call(None, Err(Error("Invalid conversation ID")))
    else
      Call(Some(Request(Delete, ConversationPath(conversationId), [])), RejectDetail(outcome))
  }

  /** Title updates and deletions look at `detail` only: an error status
      whose body has no `detail` resolves to that body. */
  lemma ErrorStatusWithoutDetailResolves(conversationId: string, title: string, response: HttpResponse)
    requires !response.Ok() && response.json.Object? && !Truthy(response.json.body.detail)
    requires conversationId != "" && Validation.ValidateConversationTitle(title)
    ensures DeleteConversation(conversationId, Received(response)).result == Ok(response.json.body)
    ensures UpdateConversationTitle(conversationId, title, Received(response)).result == Ok(response.json.body)
  {
  }

  // ---- history and health ----

  /** The three plain GET endpoints: the conversation list and the two histories. */
  datatype Listing = Conversations | ChatHistory | VideoAnalysisHistory

  function ListingPath(listing: Listing): string {
    match listing
    case Conversations => "/conversations"
    case ChatHistory => "/chat_history"
    case VideoAnalysisHistory => "/video_analysis_history"
  }

  /** The text each endpoint throws when a failed response carries no `detail`. */
  function ListingFallback(listing: Listing): string {
    match listing
    case Conversations => "Failed to fetch conversations"
    case ChatHistory => "Failed to fetch chat history"
    case VideoAnalysisHistory => "Failed to fetch video analysis history"
  }

  /** getConversations, getChatHistory and getVideoAnalysisHistory: resolve to
      the body of a 2xx response; throw the server's `detail`, or the
      endpoint's own text, for any other status. */
  function GetListing(listing: Listing, outcome: FetchOutcome): (r: Call<Body>)
    ensures r.request == Some(Request(Get, ListingPath(listing), []))
    ensures r.result.Ok? <==>
      outcome.Received? && outcome.response.Ok() && outcome.response.json.Object?
    ensures r.result.Ok? ==> r.result.value == outcome.response.json.body
    ensures outcome.Rejected? ==> r.result == Err(outcome.error)
    ensures outcome.Received? && !outcome.response.Ok() && outcome.response.json.Object? ==>
      r.result == Err(Error(OrElse(outcome.response.json.body.detail, ListingFallback(listing))))
    ensures outcome.Received? && !outcome.response.Ok() && outcome.response.json.Unparseable? ==>
      r.result == Err(Error(outcome.response.json.parseError))
  {
    Call(Some(Request(Get, ListingPath(listing), [])), ExpectOk(outcome, ListingFallback(listing)))
  }

  /** Each listing has its own path and its own failure text. */
  lemma ListingsAreDistinct(a: Listing, b: Listing)
    requires a != b
    ensures ListingPath(a) != ListingPath(b)
    ensures ListingFallback(a) != ListingFallback(b)
  {
  }

  /** checkHealth: true iff a body came back whose status is "healthy";
      every failure resolves to false. */
  function CheckHealth(outcome: FetchOutcome): (r: Call<bool>)
    ensures r.request == Some(Request(Get, "/health", []))
    ensures r.result.Ok?
    ensures r.result.value <==>
      outcome.Received? && outcome.response.json.Object? && outcome.response.json.body.status == Some("healthy")
  {
    var healthy :=
      match outcome
      case Rejected(_) => false
      case Received(response) =>
        match response.json
        case Unparseable(_) => false
        case Object(health) => health.status == Some("healthy");
    Call(Some(Request(Get, "/health", [])), Ok(healthy))
  }

  /** checkHealth reads only the body: an error status with a healthy body
      still reports healthy. */
  lemma CheckHealthIgnoresStatus(a: HttpResponse, b: HttpResponse)
    requires a.json == b.json
    ensures CheckHealth(Received(a)) == CheckHealth(Received(b))
  {
  }
}

=== FILE: chat.dfy ===
/** The chat hook: the message log, a one-second poll of a conversation's
    messages that appends the ones not seen before, and sending a message.
    The interval callback is split into the two moments the event loop
    separates: the firing, which may start a request, and the settling of
    that request. */
module Chat {
  import opened Types
  import opened Strings
  import Timers
  import Api

  /** The hook's state and refs: `chatHistory`, `isLoading`, `error`,
      `pollIntervalRef`, `lastMessageTimestampRef`, and the host's timer table. */
  datatype ChatState = ChatState(
    chatHistory: seq<Message>,
    isLoading: bool,
    error: Option<string>,
    pollInterval: Option<nat>,
    lastMessageTimestamp: Option<string>,
    timers: Timers.Timers)

  const InitialChat := ChatState([], false, None, None, None, Timers.NoTimers)

  /** The hook starts with an empty log and no interval armed. */
  lemma InitialChatValid()
    ensures Valid(InitialChat)
  {
  }

  /** No interval runs except the one `pollIntervalRef` holds. */
  predicate Valid(c: ChatState) {
    Timers.OwnedBy(c.timers, c.pollInterval)
  }

  /** The closure one startPolling call creates: its interval, its
      conversation, the log it captured, and its own in-flight flag. */
  datatype Poller = Poller(interval: nat, conversationId: string, snapshot: seq<Message>, isPolling: bool)

  // ---- the poll filter ----

  /** The poll filter treats two messages as the same when timestamp and
      content agree; the type is not compared. */
  predicate SameKey(a: Message, b: Message) {
    a.timestamp == b.timestamp && a.content == b.content
  }

  predicate Known(log: seq<Message>, m: Message) {
    exists i :: 0 <= i < |log| && SameKey(log[i], m)
  }

  /** The fetched messages that match nothing in `log`, in the order they came. */
  function NewMessages(log: seq<Message>, incoming: seq<Message>): (r: seq<Message>)
    ensures |r| <= |incoming|
  {
    if |incoming| == 0 then []
    else (if Known(log, incoming[0]) then [] else [incoming[0]]) + NewMessages(log, incoming[1..])
  }

  /** A message survives the filter exactly when it was fetched and the log
      holds nothing with its timestamp and content. */
  lemma {:induction false} NewMessagesMembers(log: seq<Message>, incoming: seq<Message>)
    ensures forall m :: m in NewMessages(log, incoming) <==> m in incoming && !Known(log, m)
    decreases |incoming|
  {
    if |incoming| > 0 {
      NewMessagesMembers(log, incoming[1..]);
      assert incoming == [incoming[0]] + incoming[1..];
    }
  }

  /** The filter works message by message: filtering a concatenation is
      concatenating the filtered parts. */
  lemma {:induction false} NewMessagesAppend(log: seq<Message>, a: seq<Message>, b: seq<Message>)
    ensures NewMessages(log, a + b) == NewMessages(log, a) + NewMessages(log, b)
    decreases |a|
  {
    if |a| == 0 {
      assert a + b == b;
    } else {
      assert (a + b)[0] == a[0];
      assert (a + b)[1..] == a[1..] + b;
      NewMessagesAppend(log, a[1..], b);
    }
  }

  /** Only timestamp and content decide: a log entry differing from a fetched
      message only in its type still hides it. */
  lemma TypeIsIgnored(log: seq<Message>, m: Message, kind: MessageType)
    requires m.(kind := kind) in log
    ensures NewMessages(log, [m]) == []
  {
    var i :| 0 <= i < |log| && log[i] == m.(kind := kind);
    assert SameKey(log[i], m);
  }

  lemma KnownInLonger(log: seq<Message>, more: seq<Message>, m: Message)
    requires Known(log, m)
    ensures Known(log + more, m)
  {
    var i :| 0 <= i < |log| && SameKey(log[i], m);
    assert (log + more)[i] == log[i];
  }

  lemma KnownInAppended(log: seq<Message>, more: seq<Message>, m: Message)
    requires m in more
    ensures Known(log + more, m)
  {
    var j :| 0 <= j < |more| && more[j] == m;
    assert (log + more)[|log| + j] == m;
  }

  /** A batch the log already knows entirely brings nothing new. */
  lemma {:induction false} AllKnownAddsNothing(log: seq<Message>, incoming: seq<Message>)
    requires forall m :: m in incoming ==> Known(log, m)
    ensures NewMessages(log, incoming) == []
    decreases |incoming|
  {
    if |incoming| > 0 {
      assert incoming[0] in incoming;
      forall m | m in incoming[1..]
        ensures Known(log, m)
      {
        assert m in incoming;
      }
      AllKnownAddsNothing(log, incoming[1..]);
    }
  }

  /** Once the new messages are in the log, the same batch brings nothing new. */
  lemma RepollAddsNothing(log: seq<Message>, incoming: seq<Message>)
    ensures NewMessages(log + NewMessages(log, incoming), incoming) == []
  {
    var added := NewMessages(log, incoming);
    NewMessagesMembers(log, incoming);
    forall m | m in incoming
      ensures Known(log + added, m)
    {
      if Known(log, m) {
        KnownInLonger(log, added, m);
      } else {
        KnownInAppended(log, added, m);
      }
    }
    AllKnownAddsNothing(log + added, incoming);
  }

  /** No two entries of the log share timestamp and content. */
  predicate UniqueKeys(log: seq<Message>) {
    forall i, j :: 0 <= i < j < |log| ==> !SameKey(log[i], log[j])
  }

  /** The filter keeps a duplicate-free batch duplicate-free. */
  lemma {:induction false} NewMessagesUnique(log: seq<Message>, incoming: seq<Message>)
    requires UniqueKeys(incoming)
    ensures UniqueKeys(NewMessages(log, incoming))
    decreases |incoming|
  {
    if |incoming| > 0 {
      var rest := incoming[1..];
      assert UniqueKeys(rest) by {
        forall i, j | 0 <= i < j < |rest|
          ensures !SameKey(rest[i], rest[j])
        {
          assert rest[i] == incoming[i + 1] && rest[j] == incoming[j + 1];
        }
      }
      NewMessagesUnique(log, rest);
      var tail := NewMessages(log, rest);
      NewMessagesMembers(log, rest);
      forall m | m in tail
        ensures !SameKey(incoming[0], m)
      {
        var j :| 0 <= j < |rest| && rest[j] == m;
        assert incoming[j + 1] == m;
      }
      if !Known(log, incoming[0]) {
        var r := [incoming[0]] + tail;
        forall i, j | 0 <= i < j < |r|
          ensures !SameKey(r[i], r[j])
        {
          if i == 0 {
            assert r[j] == tail[j - 1] && r[j] in tail;
          } else {
            assert r[i] == tail[i - 1] && r[j] == tail[j - 1];
          }
        }
      }
    }
  }

  /** Appending the filtered batch to a duplicate-free log keeps it duplicate-free. */
  lemma AppendNewKeepsUnique(log: seq<Message>, incoming: seq<Message>)
    requires UniqueKeys(log) && UniqueKeys(incoming)
    ensures UniqueKeys(log + NewMessages(log, incoming))
  {
    var added := NewMessages(log, incoming);
    NewMessagesUnique(log, incoming);
    NewMessagesMembers(log, incoming);
    var r := log + added;
    forall i, j | 0 <= i < j < |r|
      ensures !SameKey(r[i], r[j])
    {
      if j < |log| {
        assert r[i] == log[i] && r[j] == log[j];
      } else if i >= |log| {
        assert r[i] == added[i - |log|] && r[j] == added[j - |log|];
      } else {
        assert r[j] == added[j - |log|] && r[j] in added;
        assert r[i] == log[i];
      }
    }
  }

  // ---- polling ----

  /** startPolling: clear the interval the ref holds, arm a new one and
      create its closure, which captures the log as it is now. */
  function StartPolling(c: ChatState, conversationId: string): (r: (ChatState, Poller))
    requires Valid(c)
    ensures Valid(r.0)
    ensures r.0.pollInterval == Some(r.1.interval) && r.0.timers.armed == {r.1.interval}
    ensures r.1.interval !in c.timers.armed
    ensures r.1 == Poller(r.1.interval, conversationId, c.chatHistory, false)
    ensures r.0.chatHistory == c.chatHistory && r.0.error == c.error && r.0.isLoading == c.isLoading
    ensures r.0 == c.(pollInterval := Some(r.1.interval), timers := r.0.timers)
  {
    var (id, timers) := Timers.Rearm(c.timers, c.pollInterval);
    (c.(pollInterval := Some(id), timers := timers), Poller(id, conversationId, c.chatHistory, false))
  }

  /** A poller whose interval is no longer armed never fires again. */
  predicate Fires(c: ChatState, p: Poller) {
    p.interval in c.timers.armed
  }

  /** Restarting polling silences the previous closure. */
  lemma RestartSilencesOldPoller(c: ChatState, previous: Poller, conversationId: string)
    requires Valid(c)
    requires c.pollInterval == Some(previous.interval) && previous.interval in c.timers.armed
    ensures !Fires(StartPolling(c, conversationId).0, previous)
  {
    var r := StartPolling(c, conversationId);
    assert r.1.interval != previous.interval || previous.interval !in c.timers.armed;
  }

  /** The interval firing: it does nothing while its previous request is in
      flight or when the conversation id is empty; otherwise it raises the
      flag and sends the request. Returns the poller and whether a request went out. */
  function BeginTick(p: Poller): (r: (Poller, bool))
    ensures r.1 <==> !p.isPolling && p.conversationId != ""
    ensures r.1 ==> r.0 == p.(isPolling := true)
    ensures !r.1 ==> r.0 == p
  {
    if p.isPolling || p.conversationId == "" then (p, false) else (p.(isPolling := true), true)
  }

  /** While a request is in flight, further firings send nothing. */
  lemma InFlightBlocksOverlap(p: Poller)
    requires BeginTick(p).1
    ensures !BeginTick(BeginTick(p).0).1
  {
  }

  /** The catch block's test: an error is logged unless its message mentions
      "polling" or "timeout" (case-sensitive). */
  predicate LoggedPollError(message: string): (logged: bool)
    ensures StartsWith(message, "polling") || StartsWith(message, "timeout") ==> !logged
  {
    assert StartsWith(message, "polling") ==> OccursAt(message, "polling", 0);
    assert StartsWith(message, "timeout") ==> OccursAt(message, "timeout", 0);
    !Contains(message, "polling") && !Contains(message, "timeout")
  }

  /** What the settling of one poll request did. */
  datatype TickResult = TickResult(chat: ChatState, poller: Poller, logged: bool)

  /** What the settling of a poll request does when its filter reads `seen`:
      the flag drops; an array in the body appends, in order, the messages
      matching nothing in `seen`, and the timestamp ref moves to the last of
      them if there is one; a body without an array changes nothing; an
      error changes nothing and is logged unless it mentions "polling" or
      "timeout". The interval, `error` and `isLoading` are never touched. */
  predicate SettledAgainst(c: ChatState, p: Poller, seen: seq<Message>, outcome: Api.FetchOutcome, r: TickResult) {
    var body := Api.GetConversationMessages(p.conversationId, outcome).result;
    && r.poller == p.(isPolling := false)
    && r.chat.pollInterval == c.pollInterval && r.chat.timers == c.timers
    && r.chat.error == c.error && r.chat.isLoading == c.isLoading
    && (body.Ok? && body.value.messages.Some? ==>
          var added := NewMessages(seen, body.value.messages.value);
          && r.chat.chatHistory == c.chatHistory + added
          && (|added| > 0 ==> r.chat.lastMessageTimestamp == Some(added[|added| - 1].timestamp))
          && (|added| == 0 ==> r.chat == c))
    && (body.Ok? && body.value.messages.None? ==> r.chat == c)
    && (body.Err? ==> r.chat == c && (r.logged <==> LoggedPollError(body.error.message)))
    && (body.Ok? ==> !r.logged)
  }

  /** The settling of a poll request, with its filter reading `seen`. */
  function SettleTick(c: ChatState, p: Poller, seen: seq<Message>, outcome: Api.FetchOutcome): (r: TickResult)
    ensures SettledAgainst(c, p, seen, outcome, r)
  {
    var done := p.(isPolling := false);
    match Api.GetConversationMessages(p.conversationId, outcome).result
    case Ok(body) =>
      if body.messages.Some? && |NewMessages(seen, body.messages.value)| > 0 then
        var added := NewMessages(seen, body.messages.value);
        TickResult(c.(chatHistory := c.chatHistory + added,
                      lastMessageTimestamp := Some(added[|added| - 1].timestamp)), done, false)
      else
        assert body.messages.Some? ==> c.chatHistory + NewMessages(seen, body.messages.value) == c.chatHistory;
        TickResult(c, done, false)
    case Err(e) =>
      TickResult(c, done, LoggedPollError(e.message))
  }

  /** The settling as the source writes it: the filter reads the log the
      closure captured when polling started, while the append goes onto the
      log as it is now. */
  function FinishTickAsWritten(c: ChatState, p: Poller, outcome: Api.FetchOutcome): (r: TickResult)
    requires p.isPolling
    ensures SettledAgainst(c, p, p.snapshot, outcome, r)
  {
    SettleTick(c, p, p.snapshot, outcome)
  }

  /** The corrected settling: the filter reads the log as it is when the
      response arrives. */
  function FinishTick(c: ChatState, p: Poller, outcome: Api.FetchOutcome): (r: TickResult)
    requires p.isPolling
    ensures SettledAgainst(c, p, c.chatHistory, outcome, r)
  {
    SettleTick(c, p, c.chatHistory, outcome)
  }

  /** Errors the client swallows (from a rejected fetch or a non-OK reply)
      never reach the poll's catch: the hook is unchanged and nothing is logged. */
  lemma SwallowedErrorsAreSilent(c: ChatState, p: Poller, outcome: Api.FetchOutcome)
    requires p.isPolling
    requires !(outcome.Received? && outcome.response.Ok())
    requires var caught := Api.ExpectOk(outcome, Api.MessagesFallback);
      caught.Err? && Api.SwallowedWhilePolling(caught.error.message)
    ensures FinishTickAsWritten(c, p, outcome) == TickResult(c, p.(isPolling := false), false)
  {
  }

  /** Any error that reaches the callback (a rethrown rejection or non-OK
      reply, or the parse failure of a 2xx body) is logged exactly when it
      mentions neither "polling" nor "timeout", and changes nothing else. */
  lemma RethrownErrorLogging(c: ChatState, p: Poller, outcome: Api.FetchOutcome)
    requires p.isPolling
    requires Api.GetConversationMessages(p.conversationId, outcome).result.Err?
    ensures var r := FinishTickAsWritten(c, p, outcome);
      var e := Api.GetConversationMessages(p.conversationId, outcome).result.error;
      r.chat == c && (r.logged <==> LoggedPollError(e.message))
  {
  }

  /** One firing of the interval callback whose request settles before the
      next firing, as the source writes it. A closure whose interval was
      cleared, whose request is in flight or whose id is empty does nothing. */
  function Tick(c: ChatState, p: Poller, outcome: Api.FetchOutcome): (r: TickResult)
    ensures !Fires(c, p) || p.isPolling || p.conversationId == "" ==> r == TickResult(c, p, false)
    ensures Fires(c, p) && !p.isPolling && p.conversationId != "" ==>
      SettledAgainst(c, p.(isPolling := true), p.snapshot, outcome, r)
    ensures r.chat.pollInterval == c.pollInterval && r.chat.timers == c.timers
    ensures !r.poller.isPolling || r == TickResult(c, p, false)
  {
    if !Fires(c, p) then TickResult(c, p, false)
    else
      var (q, sent) := BeginTick(p);
      if sent then FinishTickAsWritten(c, q, outcome) else TickResult(c, p, false)
  }

  /** A firing that fetches new messages moves the timestamp ref to the last
      of them; one that fetches nothing new leaves the hook as it was. */
  lemma NewMessagesMoveTimestamp(c: ChatState, p: Poller, outcome: Api.FetchOutcome, incoming: seq<Message>)
    requires Fires(c, p) && !p.isPolling && p.conversationId != ""
    requires Api.GetConversationMessages(p.conversationId, outcome).result.Ok?
    requires Api.GetConversationMessages(p.conversationId, outcome).result.value.messages == Some(incoming)
    ensures var added := NewMessages(p.snapshot, incoming);
      var r := Tick(c, p, outcome);
      && (|added| > 0 ==> r.chat.lastMessageTimestamp == Some(added[|added| - 1].timestamp))
      && (|added| == 0 ==> r.chat == c)
  {
    assert SettledAgainst(c, p.(isPolling := true), p.snapshot, outcome, Tick(c, p, outcome));
  }

  /** The callback with the corrected settling of the finding below. */
  function TickCorrected(c: ChatState, p: Poller, outcome: Api.FetchOutcome): (r: TickResult)
    ensures !Fires(c, p) || p.isPolling || p.conversationId == "" ==> r == TickResult(c, p, false)
    ensures Fires(c, p) && !p.isPolling && p.conversationId != "" ==>
      SettledAgainst(c, p.(isPolling := true), c.chatHistory, outcome, r)
    ensures r.chat.pollInterval == c.pollInterval && r.chat.timers == c.timers
  {
    if !Fires(c, p) then TickResult(c, p, false)
    else
      var (q, sent) := BeginTick(p);
      if sent then FinishTick(c, q, outcome) else TickResult(c, p, false)
  }

  /** With the corrected settling, polling the same batch twice appends it once. */
  lemma TickIsIdempotent(c: ChatState, p: Poller, outcome: Api.FetchOutcome)
    requires Fires(c, p) && !p.isPolling && p.conversationId != ""
    ensures var first := TickCorrected(c, p, outcome);
      TickCorrected(first.chat, first.poller, outcome).chat.chatHistory == first.chat.chatHistory
  {
    var first := TickCorrected(c, p, outcome);
    var body := Api.GetConversationMessages(p.conversationId, outcome).result;
    if body.Ok? && body.value.messages.Some? {
      RepollAddsNothing(c.chatHistory, body.value.messages.value);
      assert first.chat.chatHistory + [] == first.chat.chatHistory;
    }
  }

  /** With the corrected settling, polling never puts two entries with the
      same timestamp and content in a log that had none, as long as each
      fetched batch has none either. */
  lemma TickKeepsKeysUnique(c: ChatState, p: Poller, outcome: Api.FetchOutcome)
    requires UniqueKeys(c.chatHistory)
    requires var body := Api.GetConversationMessages(p.conversationId, outcome).result;
      body.Ok? && body.value.messages.Some? ==> UniqueKeys(body.value.messages.value)
    ensures UniqueKeys(TickCorrected(c, p, outcome).chat.chatHistory)
  {
    var body := Api.GetConversationMessages(p.conversationId, outcome).result;
    if Fires(c, p) && !p.isPolling && p.conversationId != "" && body.Ok? && body.value.messages.Some? {
      AppendNewKeepsUnique(c.chatHistory, body.value.messages.value);
    }
  }

  /** The captured log goes stale: right after polling starts on an empty
      log, two firings that both fetch the same one message append it twice. */
  lemma StaleSnapshotDuplicates(c: ChatState, conversationId: string, m: Message)
    requires Valid(c) && c.chatHistory == [] && conversationId != ""
    ensures var (c1, p) := StartPolling(c, conversationId);
      var batch := Api.Received(Api.HttpResponse(200, Api.Object(Api.Body(None, None, None, None, Some([m])))));
      var first := Tick(c1, p, batch);
      var second := Tick(first.chat, first.poller, batch);
      second.chat.chatHistory == [m, m]
  {
    var (c1, p) := StartPolling(c, conversationId);
    assert !Known([], m);
    assert NewMessages([], [m]) == [m];
  }

  /** stopPolling: clear the interval the ref holds, if any. */
  function StopPolling(c: ChatState): (r: ChatState)
    requires Valid(c)
    ensures Valid(r)
    ensures r.pollInterval.None? && r.timers.armed == {}
    ensures r.chatHistory == c.chatHistory && r.error == c.error && r.isLoading == c.isLoading
    ensures r.lastMessageTimestamp == c.lastMessageTimestamp
  {
    if c.pollInterval.Some? then
      c.(timers := Timers.Clear(c.timers, c.pollInterval.value), pollInterval := None)
    else c
  }

  lemma StopPollingIsIdempotent(c: ChatState)
    requires Valid(c)
    ensures StopPolling(StopPolling(c)) == StopPolling(c)
  {
  }

  /** After stopPolling no poller fires. */
  lemma StopSilencesEveryPoller(c: ChatState, p: Poller)
    requires Valid(c)
    ensures !Fires(StopPolling(c), p)
  {
  }

  // ---- sending ----

  /** What sendMessage did: the hook after it, the request, and what its promise settled to. */
  datatype SendReport = SendReport(chat: ChatState, request: Option<Api.Request>, result: Result<Api.Body>)

  /** sendMessage: post the message; once the post succeeds, append it to the
      log as the user's, stamped `sentAt`. A failure sets "Failed to send
      message", leaves the log alone and rethrows. */
  function SendMessage(c: ChatState, message: string, files: seq<VideoFile>, conversationId: string,
                       outcome: Api.FetchOutcome, sentAt: string): (r: SendReport)
    ensures r.request == Some(Api.Request(Api.Post, "/send_message",
                                          Api.SendMessageForm(message, files, Some(conversationId))))
    ensures !r.chat.isLoading
    ensures r.result.Ok? ==>
      r.chat.chatHistory == c.chatHistory + [Message(message, User, sentAt)] && r.chat.error.None?
    ensures r.result.Err? ==>
      r.chat.chatHistory == c.chatHistory && r.chat.error == Some("Failed to send message")
    ensures r.result == Api.ExpectOk(outcome, "Failed to send message")
    ensures r.chat.pollInterval == c.pollInterval && r.chat.timers == c.timers
    ensures r.chat == c.(chatHistory := r.chat.chatHistory, isLoading := false, error := r.chat.error)
  {
    var call := Api.SendMessage(message, files, Some(conversationId), outcome);
    match call.result
    case Ok(body) =>
      SendReport(c.(chatHistory := c.chatHistory + [Message(message, User, sentAt)],
                    isLoading := false, error := None), call.request, call.result)
    case Err(e) =>
      SendReport(c.(isLoading := false, error := Some("Failed to send message")), call.request, call.result)
  }

  /** The user's message enters the log only after the server accepted it. */
  lemma RejectedSendLeavesNoTrace(c: ChatState, message: string, files: seq<VideoFile>,
                                  conversationId: string, e: Error, sentAt: string)
    ensures var r := SendMessage(c, message, files, conversationId, Api.Rejected(e), sentAt);
      r.chat.chatHistory == c.chatHistory && r.result == Err(e)
  {
  }
}

=== FILE: strings.dfy ===
/** The few JavaScript string operations the client relies on:
    `String.prototype.trim`, `startsWith`, `includes`, and rendering a
    status code in a template literal. */
module Strings {

  /** The characters `trim()` removes: ECMAScript WhiteSpace (tab, vertical
      tab, form feed, space, no-break space, byte order mark, the Unicode
      space separators) and LineTerminator (LF, CR, LS, PS). */
  predicate IsWhitespace(c: char) {
    var n := c as int;
    n == 0x09 || n == 0x0A || n == 0x0B || n == 0x0C || n == 0x0D || n == 0x20
    || n == 0xA0 || n == 0x1680 || (0x2000 <= n <= 0x200A) || n == 0x2028
    || n == 0x2029 || n == 0x202F || n == 0x205F || n == 0x3000 || n == 0xFEFF
  }

  predicate AllWhitespace(s: string) {
    forall i :: 0 <= i < |s| ==> IsWhitespace(s[i])
  }

  /** `s` has at least one character `trim()` keeps. */
  predicate HasVisible(s: string) {
    exists i :: 0 <= i < |s| && !IsWhitespace(s[i])
  }

  /** `r` sits in `s` at offset `i` with only whitespace around it. */
  predicate TrimmedAt(s: string, r: string, i: int) {
    0 <= i && i + |r| <= |s| && s[i..i + |r|] == r
    && AllWhitespace(s[..i]) && AllWhitespace(s[i + |r|..])
  }

  function TrimStart(s: string): (r: string)
    ensures |r| <= |s| && r == s[|s| - |r|..]
    ensures AllWhitespace(s[..|s| - |r|])
    ensures |r| > 0 ==> !IsWhitespace(r[0])
  {
    if |s| > 0 && IsWhitespace(s[0]) then
      var r := TrimStart(s[1..]);
      DropFirstSlices(s, |s| - |r|);
      WhitespaceCons(s[0], s[1..][..|s| - 1 - |r|]);
      r
    else
      s
  }

  function TrimEnd(s: string): (r: string)
    ensures |r| <= |s| && r == s[..|r|]
    ensures AllWhitespace(s[|r|..])
    ensures |r| > 0 ==> !IsWhitespace(r[|r| - 1])
  {
    if |s| > 0 && IsWhitespace(s[|s| - 1]) then
      var r := TrimEnd(s[..|s| - 1]);
      DropLastSlices(s, |r|);
      WhitespaceSnoc(s[..|s| - 1][|r|..], s[|s| - 1]);
      r
    else
      s
  }

  lemma DropFirstSlices(s: string, k: nat)
    requires 1 <= k <= |s|
    ensures s[..k] == [s[0]] + s[1..][..k - 1]
    ensures s[1..][k - 1..] == s[k..]
  {
  }

  lemma DropLastSlices(s: string, k: nat)
    requires k < |s|
    ensures s[k..] == s[..|s| - 1][k..] + [s[|s| - 1]]
    ensures s[..|s| - 1][..k] == s[..k]
  {
  }

  lemma WhitespaceCons(c: char, w: string)
    requires IsWhitespace(c) && AllWhitespace(w)
    ensures AllWhitespace([c] + w)
  {
    assert forall i :: 0 < i <= |w| ==> ([c] + w)[i] == w[i - 1];
  }

  lemma WhitespaceSnoc(w: string, c: char)
    requires IsWhitespace(c) && AllWhitespace(w)
    ensures AllWhitespace(w + [c])
  {
    assert forall i :: 0 <= i < |w| ==> (w + [c])[i] == w[i];
  }

  /** `String.prototype.trim`: the text between the leading and trailing whitespace. */
  function Trim(s: string): (r: string)
    ensures |r| == 0 <==> AllWhitespace(s)
    ensures |r| > 0 ==> !IsWhitespace(r[0]) && !IsWhitespace(r[|r| - 1])
  {
    TrimEmpty(s);
    TrimEnd(TrimStart(s))
  }

  /** What `trim()` returns sits in the input right after the leading
      whitespace, with only whitespace after it. */
  lemma TrimPlacement(s: string)
    ensures TrimmedAt(s, Trim(s), |s| - |TrimStart(s)|)
  {
    PlacedBetween(s, TrimStart(s), Trim(s));
  }

  /** A prefix `r` of a suffix `t` of `s`, with whitespace before `t` and
      after `r`, sits in `s` with only whitespace around it. */
  lemma PlacedBetween(s: string, t: string, r: string)
    requires |t| <= |s| && t == s[|s| - |t|..] && AllWhitespace(s[..|s| - |t|])
    requires |r| <= |t| && r == t[..|r|] && AllWhitespace(t[|r|..])
    ensures TrimmedAt(s, r, |s| - |t|)
  {
    var i := |s| - |t|;
    SuffixSlices(s, i, |r|);
    assert s[i + |r|..] == t[|r|..];
  }

  lemma SuffixSlices(s: string, i: nat, k: nat)
    requires i + k <= |s|
    ensures s[i..][..k] == s[i..i + k]
    ensures s[i..][k..] == s[i + k..]
  {
  }

  lemma TrimEmpty(s: string)
    ensures |TrimEnd(TrimStart(s))| == 0 <==> AllWhitespace(s)
  {
    var t := TrimStart(s);
    var r := TrimEnd(t);
    var i := |s| - |t|;
    if |r| == 0 {
      assert t[|r|..] == t;
      assert AllWhitespace(t);
      assert s == s[..i];
    }
    assert |t| > 0 ==> t[0] == s[i];
  }

  lemma {:induction false} TrimStartDropsWhitespacePrefix(a: string, s: string)
    requires AllWhitespace(a)
    ensures TrimStart(a + s) == TrimStart(s)
    decreases |a|
  {
    if |a| > 0 {
      assert (a + s)[1..] == a[1..] + s;
      TrimStartDropsWhitespacePrefix(a[1..], s);
    } else {
      assert a + s == s;
    }
  }

  lemma {:induction false} TrimEndDropsWhitespaceSuffix(s: string, b: string)
    requires AllWhitespace(b)
    ensures TrimEnd(s + b) == TrimEnd(s)
    decreases |b|
  {
    if |b| > 0 {
      assert (s + b)[..|s + b| - 1] == s + b[..|b| - 1];
      TrimEndDropsWhitespaceSuffix(s, b[..|b| - 1]);
    } else {
      assert s + b == s;
    }
  }

  lemma {:induction false} TrimStartKeepsSuffix(s: string, b: string)
    requires AllWhitespace(b)
    ensures TrimStart(s + b) == TrimStart(s) + b
         || (AllWhitespace(s) && TrimStart(s + b) == [] && TrimStart(s) == [])
    decreases |s|
  {
    if |s| == 0 {
      assert s + b == b;
    } else if IsWhitespace(s[0]) {
      assert (s + b)[1..] == s[1..] + b;
      TrimStartKeepsSuffix(s[1..], b);
    }
  }

  /** Surrounding a string with whitespace does not change what `trim()` returns. */
  lemma TrimIgnoresPadding(a: string, s: string, b: string)
    requires AllWhitespace(a) && AllWhitespace(b)
    ensures Trim(a + s + b) == Trim(s)
  {
    assert a + s + b == a + (s + b);
    TrimStartDropsWhitespacePrefix(a, s + b);
    TrimStartKeepsSuffix(s, b);
    TrimEndDropsWhitespaceSuffix(TrimStart(s), b);
    calc {
      Trim(a + s + b);
      TrimEnd(TrimStart(a + (s + b)));
      TrimEnd(TrimStart(s + b));
      TrimEnd(TrimStart(s) + b);
      TrimEnd(TrimStart(s));
      Trim(s);
    }
  }

  predicate StartsWith(s: string, prefix: string) {
    |prefix| <= |s| && s[..|prefix|] == prefix
  }

  predicate OccursAt(s: string, sub: string, i: int) {
    0 <= i && i + |sub| <= |s| && s[i..i + |sub|] == sub
  }

  /** `String.prototype.includes`. */
  predicate Contains(s: string, sub: string) {
    exists i | 0 <= i <= |s| :: OccursAt(s, sub, i)
  }

  lemma StartsWithContains(s: string, prefix: string)
    requires StartsWith(s, prefix)
    ensures Contains(s, prefix)
  {
    assert OccursAt(s, prefix, 0);
  }

  /** The linear scan `includes` performs, agreeing with the definition. */
  method Includes(s: string, sub: string) returns (found: bool)
    ensures found <==> Contains(s, sub)
  {
    var i := 0;
    while i + |sub| <= |s|
      invariant 0 <= i <= |s| + 1
      invariant forall j :: 0 <= j < i ==> !OccursAt(s, sub, j)
      decreases |s| - i
    {
      if s[i..i + |sub|] == sub {
        assert OccursAt(s, sub, i);
        return true;
      }
      i := i + 1;
    }
    found := false;
  }

  function DigitChar(d: nat): (c: char)
    requires d < 10
    ensures '0' <= c <= '9' && c as int - '0' as int == d
  {
    (('0' as int) + d) as char
  }

  predicate IsDigits(s: string) {
    forall i :: 0 <= i < |s| ==> '0' <= s[i] <= '9'
  }

  /** Decimal rendering of a non-negative integer, as `${n}` produces it. */
  function NatToString(n: nat): (s: string)
    ensures |s| >= 1 && IsDigits(s)
    ensures |s| > 1 ==> s[0] != '0'
  {
    if n < 10 then [DigitChar(n)] else NatToString(n / 10) + [DigitChar(n % 10)]
  }

  function ParseDigits(s: string): nat
    requires IsDigits(s)
  {
    if |s| == 0 then 0 else ParseDigits(s[..|s| - 1]) * 10 + (s[|s| - 1] as int - '0' as int)
  }

  /** The rendering loses nothing: the number can be read back from it. */
  lemma {:induction false} ParseNatToString(n: nat)
    ensures ParseDigits(NatToString(n)) == n
  {
    if n >= 10 {
      var s := NatToString(n);
      assert s[..|s| - 1] == NatToString(n / 10);
      ParseNatToString(n / 10);
    }
  }

  lemma NatToStringInjective(a: nat, b: nat)
    requires NatToString(a) == NatToString(b)
    ensures a == b
  {
    ParseNatToString(a);
    ParseNatToString(b);
  }
}

=== FILE: timers.dfy ===
/** The host's interval table, reduced to which interval ids are armed.
    `setInterval` hands out a fresh positive id; `clearInterval` disarms one. */
module Timers {
  import opened Types

  datatype Timers = Timers(armed: set<nat>, next: nat)

  const NoTimers := Timers({}, 1)

  /** Every armed id was handed out earlier, so the next one is fresh. */
  predicate Valid(t: Timers) {
    t.next >= 1 && forall id :: id in t.armed ==> 1 <= id < t.next
  }

  /** `setInterval`: the new id and the table with it armed. */
  function Arm(t: Timers): (r: (nat, Timers))
    requires Valid(t)
    ensures r.0 >= 1 && r.0 !in t.armed
    ensures r.1.armed == t.armed + {r.0}
    ensures Valid(r.1)
  {
    (t.next, Timers(t.armed + {t.next}, t.next + 1))
  }

  /** `clearInterval`: disarming an id that is not armed changes nothing. */
  function Clear(t: Timers, id: nat): (r: Timers)
    ensures r.armed == t.armed - {id}
    ensures id !in t.armed ==> r == t
    ensures Valid(t) ==> Valid(r)
  {
    Timers(t.armed - {id}, t.next)
  }

  /** The intervals of one hook: nothing is armed except the one its ref holds. */
  predicate OwnedBy(t: Timers, ref: Option<nat>) {
    Valid(t) && (match ref
      case None => t.armed == {}
      case Some(id) => t.armed <= {id})
  }

  lemma OwnedByArmsAtMostOne(t: Timers, ref: Option<nat>)
    requires OwnedBy(t, ref)
    ensures |t.armed| <= 1
  {
    if ref.Some? {
      assert t.armed <= {ref.value};
      if ref.value in t.armed {
        assert t.armed == {ref.value};
      } else {
        assert t.armed == {};
      }
    }
  }

  /** Clearing the interval a ref holds (if any) and arming a fresh one leaves
      exactly the fresh one armed, whatever was armed under the ref before. */
  function Rearm(t: Timers, ref: Option<nat>): (r: (nat, Timers))
    requires OwnedBy(t, ref)
    ensures r.0 !in t.armed
    ensures r.1.armed == {r.0}
    ensures OwnedBy(r.1, Some(r.0))
  {
    var cleared := if ref.Some? then Clear(t, ref.value) else t;
    Arm(cleared)
  }
}

=== FILE: token_management.dfy ===
/** The token session coordinator: a cached token record, a forced or
    cache-first fetch with bounded exponential-backoff retry and stale-cache
    fallback, and the periodic refresh timer. The clock is the parameter
    `now` (milliseconds); the network is a sequence of outcomes, one per
    request, consumed in order. */
module TokenManagement {
  import opened Types
  import opened Strings
  import Timers

  const CacheDuration := 30000
  const MaxRetries := 3
  const RetryDelay := 1000
  const InitialFetchDelay := 2000

  /** `cacheRef`: the last data fetched successfully and when. */
  datatype Cache = Cache(data: Option<TokenInfo>, timestamp: int)

  /** The state fetchTokenInfo reads and writes: the hook's four state
      variables with the cache and retry-counter refs. */
  datatype Session = Session(
    tokenInfo: Option<TokenInfo>,
    isLoading: bool,
    error: Option<string>,
    isAuthenticated: bool,
    cache: Cache,
    retryCount: nat)

  /** The whole hook: the session and the refresh interval `updateIntervalRef`
      with the host's timer table. */
  datatype TokenState = TokenState(session: Session, updateInterval: Option<nat>, timers: Timers.Timers)

  const InitialSession := Session(None, false, None, false, Cache(None, 0), 0)
  const InitialState := TokenState(InitialSession, None, Timers.NoTimers)

  /** The invariant the hook keeps: the counter stays within its bound and
      no interval runs except the one `updateIntervalRef` holds. */
  predicate Valid(s: TokenState) {
    s.session.retryCount <= MaxRetries && Timers.OwnedBy(s.timers, s.updateInterval)
  }

  /** What `response.json()` gave for a 2xx reply. */
  datatype TokenBody = Parsed(data: Option<TokenInfo>) | Unparseable(parseError: string)

  /** What one request to `/user/tokens` did. */
  datatype TokenOutcome =
    | Responded(status: nat, body: TokenBody)
    | TimedOut                        // the 5-second abort fired: an AbortError
    | NetworkFailure(reason: string)  // fetch rejected with some other error

  /** How one attempt ended. */
  datatype Attempt = Succeeded(data: Option<TokenInfo>) | Unauthorized | Failed(message: string)

  predicate IsOkStatus(status: nat) {
    200 <= status <= 299
  }

  const HttpErrorPrefix := "Failed to fetch token information: "

  function ClassifyAttempt(outcome: TokenOutcome): (a: Attempt)
    ensures a.Unauthorized? <==> outcome.Responded? && outcome.status == 401
    ensures a.Succeeded? <==> outcome.Responded? && IsOkStatus(outcome.status) && outcome.body.Parsed?
    ensures outcome.TimedOut? ==> a == Failed("Request timed out")
    ensures outcome.NetworkFailure? ==> a == Failed(outcome.reason)
    ensures outcome.Responded? && IsOkStatus(outcome.status) && outcome.body.Unparseable? ==>
      a == Failed(outcome.body.parseError)
    ensures outcome.Responded? && outcome.status != 401 && !IsOkStatus(outcome.status) ==>
      a == Failed(HttpErrorPrefix + NatToString(outcome.status))
  {
    match outcome
    case Responded(status, body) =>
      if status == 401 then Unauthorized
      else if !IsOkStatus(status) then Failed(HttpErrorPrefix + NatToString(status))
      else (match body
            case Unparseable(e) => Failed(e)
            case Parsed(data) => Succeeded(data))
    case TimedOut => Failed("Request timed out")
    case NetworkFailure(reason) => Failed(reason)
  }

  /** The status code can be read back from the error an HTTP failure leaves. */
  lemma HttpErrorCarriesStatus(status: nat)
    requires status != 401 && !IsOkStatus(status)
    ensures var a := ClassifyAttempt(Responded(status, Parsed(None)));
      && a.Failed? && StartsWith(a.message, HttpErrorPrefix)
      && IsDigits(a.message[|HttpErrorPrefix|..])
      && ParseDigits(a.message[|HttpErrorPrefix|..]) == status
  {
    var m := HttpErrorPrefix + NatToString(status);
    assert m[|HttpErrorPrefix|..] == NatToString(status);
    assert m[..|HttpErrorPrefix|] == HttpErrorPrefix;
    ParseNatToString(status);
  }

  /** The replies a run of request outcomes gives, in order. */
  function ClassifyAll(net: seq<TokenOutcome>): (replies: seq<Attempt>)
    ensures |replies| == |net|
    ensures forall i :: 0 <= i < |net| ==> replies[i] == ClassifyAttempt(net[i])
  {
    seq(|net|, i requires 0 <= i < |net| => ClassifyAttempt(net[i]))
  }

  function Pow2(k: nat): (r: nat)
    ensures r >= 1
  {
    if k == 0 then 1 else 2 * Pow2(k - 1)
  }

  /** The wait before the retry that raised the counter to `count`. A retry
      only happens below MaxRetries, so the raised counter is 1, 2 or 3 and
      the three waits are written out and tied to RetryDelay * 2^(count - 1). */
  function BackoffDelay(count: nat): (d: nat)
    requires 1 <= count <= MaxRetries
    ensures d == RetryDelay * Pow2(count - 1)
  {
    if count == 1 then RetryDelay else if count == 2 then 2 * RetryDelay else 4 * RetryDelay
  }

  /** The waits of an uninterrupted run of failures starting at counter `count`. */
  function BackoffSchedule(count: nat): seq<nat>
    decreases MaxRetries - count
  {
    if count < MaxRetries then [BackoffDelay(count + 1)] + BackoffSchedule(count + 1) else []
  }

  lemma BackoffFromZero()
    ensures BackoffSchedule(0) == [1000, 2000, 4000]
  {
  }

  /** The most requests one call can make with the counter at `count`. */
  function AttemptBudget(count: nat): (n: nat)
    ensures n >= 1
    ensures count <= MaxRetries ==> n == 1 + MaxRetries - count
  {
    if count < MaxRetries then 1 + MaxRetries - count else 1
  }

  /** The cache-hit test at the top of fetchTokenInfo. */
  predicate CacheFresh(s: Session, forceRefresh: bool, now: int): (current: bool)
    ensures current ==> !forceRefresh && s.cache.data.Some?
    ensures current ==> now < s.cache.timestamp + CacheDuration
  {
    !forceRefresh && s.cache.data.Some? && now - s.cache.timestamp < CacheDuration
  }

  /** Once the cache has gone stale it stays stale until it is written again. */
  lemma StaleCacheStaysStale(s: Session, forceRefresh: bool, now: int, later: int)
    requires !CacheFresh(s, forceRefresh, now) && now <= later
    ensures !CacheFresh(s, forceRefresh, later)
  {
  }

  /** What one call of fetchTokenInfo did: the state after it, the value its
      promise resolved to, how many requests it sent and the backoff waits
      between them. */
  datatype FetchReport = FetchReport(state: Session, value: Option<TokenInfo>, requests: nat, delays: seq<nat>)

  predicate IsPrefix(a: seq<nat>, b: seq<nat>) {
    |a| <= |b| && a == b[..|a|]
  }

  function Sum(xs: seq<nat>): nat {
    if |xs| == 0 then 0 else xs[0] + Sum(xs[1..])
  }

  /** Whether a reply sends fetchTokenInfo into a retry: it failed and the
      counter is below its maximum. */
  predicate Retries(s: Session, reply: Attempt) {
    reply.Failed? && s.retryCount < MaxRetries
  }

  /** The state a failed attempt hands to the retry: the error recorded and the counter raised. */
  function RetryState(s: Session, message: string): Session {
    s.(isLoading := true, error := Some(message), retryCount := s.retryCount + 1)
  }

  /** The report of the request that ends a call: a 401, a success, or a
      failure with no retry left, which answers with the cached data or null.
      `isLoading` is cleared by the `finally`. */
  function Settle(s: Session, now: int, reply: Attempt): (r: FetchReport)
    requires !Retries(s, reply)
    ensures r.requests == 1 && r.delays == [] && !r.state.isLoading
    ensures r.state.retryCount <= s.retryCount
  {
    match reply
    case Unauthorized =>
      FetchReport(s.(isAuthenticated := false, isLoading := false, error := None), None, 1, [])
    case Succeeded(data) =>
      FetchReport(s.(cache := Cache(data, now), tokenInfo := data, retryCount := 0, isLoading := false, error := None),
                  data, 1, [])
    case Failed(message) =>
      var shown := if s.cache.data.Some? then s.cache.data else s.tokenInfo;
      FetchReport(s.(tokenInfo := shown, isLoading := false, error := Some(message)), s.cache.data, 1, [])
  }

  /** The report of a call that retried, built from the report of its retry. */
  function AfterRetry(delay: nat, rest: FetchReport): FetchReport {
    FetchReport(rest.state.(isLoading := false), rest.value, 1 + rest.requests, [delay] + rest.delays)
  }

  /** fetchTokenInfo(forceRefresh) at time `now`. `replies[i]` is how the
      i-th request it sends ends (ClassifyAll turns raw outcomes into
      replies). A retry happens after its backoff delay and re-enters the
      whole function, cache test included; it terminates because each retry
      raises the counter. */
  function FetchTokenInfo(s: Session, forceRefresh: bool, now: int, replies: seq<Attempt>): (r: FetchReport)
    requires |replies| >= AttemptBudget(s.retryCount)
    ensures r.requests == 0 <==> CacheFresh(s, forceRefresh, now)
    ensures r.requests <= AttemptBudget(s.retryCount)
    decreases AttemptBudget(s.retryCount)
  {
    if CacheFresh(s, forceRefresh, now) then
      FetchReport(s.(tokenInfo := s.cache.data), s.cache.data, 0, [])
    else if Retries(s, replies[0]) then
      AfterRetry(BackoffDelay(s.retryCount + 1),
                 FetchTokenInfo(RetryState(s, replies[0].message), forceRefresh,
                                now + BackoffDelay(s.retryCount + 1), replies[1..]))
    else
      Settle(s, now, replies[0])
  }

  /** One unfolding of FetchTokenInfo past the cache test. */
  lemma FetchUnfolds(s: Session, forceRefresh: bool, now: int, replies: seq<Attempt>)
    requires |replies| >= AttemptBudget(s.retryCount)
    requires !CacheFresh(s, forceRefresh, now)
    ensures !Retries(s, replies[0]) ==>
      FetchTokenInfo(s, forceRefresh, now, replies) == Settle(s, now, replies[0])
    ensures Retries(s, replies[0]) ==>
      FetchTokenInfo(s, forceRefresh, now, replies)
        == AfterRetry(BackoffDelay(s.retryCount + 1),
                      FetchTokenInfo(RetryState(s, replies[0].message), forceRefresh,
                                     now + BackoffDelay(s.retryCount + 1), replies[1..]))
  {
  }

  /** A retry never takes the cache path: the cache is as it was and the
      clock has only moved forward. */
  lemma RetryMissesCache(s: Session, message: string, forceRefresh: bool, now: int, later: int)
    requires !CacheFresh(s, forceRefresh, now)
    requires later >= now
    ensures !CacheFresh(RetryState(s, message), forceRefresh, later)
  {
  }

  /** The cache-hit path: the cached data, no request, only tokenInfo touched. */
  lemma CacheHitServesCache(s: Session, forceRefresh: bool, now: int, replies: seq<Attempt>)
    requires |replies| >= AttemptBudget(s.retryCount)
    requires CacheFresh(s, forceRefresh, now)
    ensures var r := FetchTokenInfo(s, forceRefresh, now, replies);
      && r.value == s.cache.data && r.value.Some?
      && r.requests == 0
      && r.state == s.(tokenInfo := s.cache.data)
  {
  }

  /** The reply that ended a call which sent at least one request. */
  function LastReply(s: Session, forceRefresh: bool, now: int, replies: seq<Attempt>): Attempt
    requires |replies| >= AttemptBudget(s.retryCount)
    requires !CacheFresh(s, forceRefresh, now)
  {
    replies[FetchTokenInfo(s, forceRefresh, now, replies).requests - 1]
  }

  /** A call whose first request is retried ends with the reply its retry ends with. */
  lemma LastReplyOfRetry(s: Session, forceRefresh: bool, now: int, replies: seq<Attempt>)
    requires |replies| >= AttemptBudget(s.retryCount)
    requires !CacheFresh(s, forceRefresh, now)
    requires Retries(s, replies[0])
    ensures !CacheFresh(RetryState(s, replies[0].message), forceRefresh, now + BackoffDelay(s.retryCount + 1))
    ensures LastReply(s, forceRefresh, now, replies)
         == LastReply(RetryState(s, replies[0].message), forceRefresh, now + BackoffDelay(s.retryCount + 1), replies[1..])
  {
    var t := RetryState(s, replies[0].message);
    var later := now + BackoffDelay(s.retryCount + 1);
    RetryMissesCache(s, replies[0].message, forceRefresh, now, later);
    FetchUnfolds(s, forceRefresh, now, replies);
    var rest := FetchTokenInfo(t, forceRefresh, later, replies[1..]);
    assert replies[rest.requests] == replies[1..][rest.requests - 1];
  }

  /** A call that is not retried ends with its first reply. */
  lemma LastReplyOfSettle(s: Session, forceRefresh: bool, now: int, replies: seq<Attempt>)
    requires |replies| >= AttemptBudget(s.retryCount)
    requires !CacheFresh(s, forceRefresh, now)
    requires !Retries(s, replies[0])
    ensures FetchTokenInfo(s, forceRefresh, now, replies) == Settle(s, now, replies[0])
    ensures LastReply(s, forceRefresh, now, replies) == replies[0]
  {
    FetchUnfolds(s, forceRefresh, now, replies);
  }

  /** Every reply before the last one was a failure. */
  lemma {:induction false} EarlierRepliesFailed(s: Session, forceRefresh: bool, now: int, replies: seq<Attempt>)
    requires |replies| >= AttemptBudget(s.retryCount)
    requires !CacheFresh(s, forceRefresh, now)
    ensures var r := FetchTokenInfo(s, forceRefresh, now, replies);
      forall i :: 0 <= i < r.requests - 1 ==> replies[i].Failed?
    decreases AttemptBudget(s.retryCount)
  {
    var r := FetchTokenInfo(s, forceRefresh, now, replies);
    if Retries(s, replies[0]) {
      var t := RetryState(s, replies[0].message);
      var later := now + BackoffDelay(s.retryCount + 1);
      var rest := FetchTokenInfo(t, forceRefresh, later, replies[1..]);
      LastReplyOfRetry(s, forceRefresh, now, replies);
      assert r.requests == 1 + rest.requests by {
        FetchUnfolds(s, forceRefresh, now, replies);
      }
      EarlierRepliesFailed(t, forceRefresh, later, replies[1..]);
      forall i | 0 <= i < r.requests - 1
        ensures replies[i].Failed?
      {
        if i > 0 {
          assert replies[i] == replies[1..][i - 1];
        }
      }
    } else {
      LastReplyOfSettle(s, forceRefresh, now, replies);
    }
  }

  /** A call whose last reply succeeded stores that data, stamped with the
      time of that request, resets the counter and clears the error; nothing
      else changes. */
  lemma {:induction false} EndsInSuccess(s: Session, forceRefresh: bool, now: int, replies: seq<Attempt>)
    requires |replies| >= AttemptBudget(s.retryCount)
    requires !CacheFresh(s, forceRefresh, now)
    requires LastReply(s, forceRefresh, now, replies).Succeeded?
    ensures var r := FetchTokenInfo(s, forceRefresh, now, replies);
      var data := LastReply(s, forceRefresh, now, replies).data;
      && r.value == data
      && r.state == s.(tokenInfo := data, cache := Cache(data, now + Sum(r.delays)),
                       retryCount := 0, isLoading := false, error := None)
    decreases AttemptBudget(s.retryCount)
  {
    if Retries(s, replies[0]) {
      var t := RetryState(s, replies[0].message);
      var delay := BackoffDelay(s.retryCount + 1);
      LastReplyOfRetry(s, forceRefresh, now, replies);
      EndsInSuccess(t, forceRefresh, now + delay, replies[1..]);
      var rest := FetchTokenInfo(t, forceRefresh, now + delay, replies[1..]);
      assert FetchTokenInfo(s, forceRefresh, now, replies) == AfterRetry(delay, rest) by {
        FetchUnfolds(s, forceRefresh, now, replies);
      }
      SuccessLifts(s, replies[0].message, now, delay, LastReply(t, forceRefresh, now + delay, replies[1..]).data, rest);
    } else {
      LastReplyOfSettle(s, forceRefresh, now, replies);
    }
  }

  /** The step case of EndsInSuccess. */
  lemma SuccessLifts(s: Session, first: string, now: int, delay: nat, data: Option<TokenInfo>, rest: FetchReport)
    requires var t := RetryState(s, first);
      && rest.value == data
      && rest.state == t.(tokenInfo := data, cache := Cache(data, now + delay + Sum(rest.delays)),
                          retryCount := 0, isLoading := false, error := None)
    ensures var r := AfterRetry(delay, rest);
      && r.value == data
      && r.state == s.(tokenInfo := data, cache := Cache(data, now + Sum(r.delays)),
                       retryCount := 0, isLoading := false, error := None)
  {
    SumCons(delay, rest.delays);
  }

  lemma SumCons(d: nat, xs: seq<nat>)
    ensures Sum([d] + xs) == d + Sum(xs)
  {
    assert ([d] + xs)[1..] == xs;
  }

  /** A call whose last reply was a 401 returns null and unauthenticates;
      the retries before it stay counted, the cache is untouched. */
  lemma {:induction false} EndsUnauthorized(s: Session, forceRefresh: bool, now: int, replies: seq<Attempt>)
    requires |replies| >= AttemptBudget(s.retryCount)
    requires !CacheFresh(s, forceRefresh, now)
    requires LastReply(s, forceRefresh, now, replies).Unauthorized?
    ensures var r := FetchTokenInfo(s, forceRefresh, now, replies);
      && r.value.None?
      && r.state == s.(isAuthenticated := false, isLoading := false, error := None,
                       retryCount := s.retryCount + r.requests - 1)
    decreases AttemptBudget(s.retryCount)
  {
    if Retries(s, replies[0]) {
      var t := RetryState(s, replies[0].message);
      var delay := BackoffDelay(s.retryCount + 1);
      LastReplyOfRetry(s, forceRefresh, now, replies);
      EndsUnauthorized(t, forceRefresh, now + delay, replies[1..]);
      var rest := FetchTokenInfo(t, forceRefresh, now + delay, replies[1..]);
      assert FetchTokenInfo(s, forceRefresh, now, replies) == AfterRetry(delay, rest) by {
        FetchUnfolds(s, forceRefresh, now, replies);
      }
    } else {
      LastReplyOfSettle(s, forceRefresh, now, replies);
    }
  }

  /** What a call leaves behind when every request it was allowed failed. */
  function FallbackState(s: Session, message: string): Session {
    s.(isLoading := false, error := Some(message), retryCount := MaxRetries,
       tokenInfo := if s.cache.data.Some? then s.cache.data else s.tokenInfo)
  }

  /** A call whose last reply failed has used its whole budget, waited the
      whole schedule, and falls back to the cached data, or null; the cache
      and the authentication flag are untouched and the counter stays at its
      maximum. */
  lemma {:induction false} EndsInFailure(s: Session, forceRefresh: bool, now: int, replies: seq<Attempt>)
    requires |replies| >= AttemptBudget(s.retryCount)
    requires s.retryCount <= MaxRetries
    requires !CacheFresh(s, forceRefresh, now)
    requires LastReply(s, forceRefresh, now, replies).Failed?
    ensures FetchTokenInfo(s, forceRefresh, now, replies)
         == FetchReport(FallbackState(s, LastReply(s, forceRefresh, now, replies).message),
                        s.cache.data, AttemptBudget(s.retryCount), BackoffSchedule(s.retryCount))
    decreases AttemptBudget(s.retryCount)
  {
    if Retries(s, replies[0]) {
      var t := RetryState(s, replies[0].message);
      var delay := BackoffDelay(s.retryCount + 1);
      LastReplyOfRetry(s, forceRefresh, now, replies);
      EndsInFailure(t, forceRefresh, now + delay, replies[1..]);
      var rest := FetchTokenInfo(t, forceRefresh, now + delay, replies[1..]);
      assert FetchTokenInfo(s, forceRefresh, now, replies) == AfterRetry(delay, rest) by {
        FetchUnfolds(s, forceRefresh, now, replies);
      }
      FailureLifts(s, replies[0].message, LastReply(t, forceRefresh, now + delay, replies[1..]).message, rest);
    } else {
      LastReplyOfSettle(s, forceRefresh, now, replies);
    }
  }

  /** The step case of EndsInFailure: one more failed request in front of a
      call that fell back gives a call that fell back. */
  lemma FailureLifts(s: Session, first: string, last: string, rest: FetchReport)
    requires s.retryCount < MaxRetries
    requires var t := RetryState(s, first);
      rest == FetchReport(FallbackState(t, last), t.cache.data, AttemptBudget(t.retryCount), BackoffSchedule(t.retryCount))
    ensures AfterRetry(BackoffDelay(s.retryCount + 1), rest)
         == FetchReport(FallbackState(s, last), s.cache.data, AttemptBudget(s.retryCount), BackoffSchedule(s.retryCount))
  {
  }

  /** Whatever the replies, the waits of one call are a prefix of the
      backoff schedule from its starting counter. */
  lemma {:induction false} DelaysFollowSchedule(s: Session, forceRefresh: bool, now: int, replies: seq<Attempt>)
    requires |replies| >= AttemptBudget(s.retryCount)
    ensures IsPrefix(FetchTokenInfo(s, forceRefresh, now, replies).delays, BackoffSchedule(s.retryCount))
    decreases AttemptBudget(s.retryCount)
  {
    var r := FetchTokenInfo(s, forceRefresh, now, replies);
    if !CacheFresh(s, forceRefresh, now) && Retries(s, replies[0]) {
      var t := RetryState(s, replies[0].message);
      var delay := BackoffDelay(s.retryCount + 1);
      var rest := FetchTokenInfo(t, forceRefresh, now + delay, replies[1..]);
      assert r == AfterRetry(delay, rest) by {
        FetchUnfolds(s, forceRefresh, now, replies);
      }
      DelaysFollowSchedule(t, forceRefresh, now + delay, replies[1..]);
      DelaysLift(s, replies[0].message, rest);
    } else {
      assert r.delays == [] by {
        if !CacheFresh(s, forceRefresh, now) {
          FetchUnfolds(s, forceRefresh, now, replies);
        }
      }
      PrefixNil(BackoffSchedule(s.retryCount));
    }
  }

  /** The step case of DelaysFollowSchedule. */
  lemma DelaysLift(s: Session, first: string, rest: FetchReport)
    requires s.retryCount < MaxRetries
    requires IsPrefix(rest.delays, BackoffSchedule(RetryState(s, first).retryCount))
    ensures IsPrefix(AfterRetry(BackoffDelay(s.retryCount + 1), rest).delays, BackoffSchedule(s.retryCount))
  {
    var delay := BackoffDelay(s.retryCount + 1);
    assert BackoffSchedule(s.retryCount) == [delay] + BackoffSchedule(s.retryCount + 1);
    PrefixCons(delay, rest.delays, BackoffSchedule(s.retryCount + 1));
  }

  lemma PrefixNil(b: seq<nat>)
    ensures IsPrefix([], b)
  {
    assert b[..0] == [];
  }

  lemma PrefixCons(d: nat, a: seq<nat>, b: seq<nat>)
    requires IsPrefix(a, b)
    ensures IsPrefix([d] + a, [d] + b)
  {
    assert ([d] + b)[..|a| + 1] == [d] + b[..|a|];
  }

  /** After a call that sent a request nothing is loading any more, and the
      counter is still within its bound. */
  lemma FetchSettles(s: Session, forceRefresh: bool, now: int, replies: seq<Attempt>)
    requires |replies| >= AttemptBudget(s.retryCount)
    requires s.retryCount <= MaxRetries
    ensures var r := FetchTokenInfo(s, forceRefresh, now, replies);
      && (r.requests > 0 ==> !r.state.isLoading)
      && r.state.retryCount <= MaxRetries
  {
    if !CacheFresh(s, forceRefresh, now) {
      var last := LastReply(s, forceRefresh, now, replies);
      if last.Succeeded? {
        EndsInSuccess(s, forceRefresh, now, replies);
      } else if last.Unauthorized? {
        EndsUnauthorized(s, forceRefresh, now, replies);
      } else {
        EndsInFailure(s, forceRefresh, now, replies);
      }
    }
  }

  /** A 401 ends the call at once: null, unauthenticated, nothing else lost. */
  lemma UnauthorizedStopsAtOnce(s: Session, forceRefresh: bool, now: int, net: seq<TokenOutcome>, body: TokenBody)
    requires |net| >= AttemptBudget(s.retryCount)
    requires !CacheFresh(s, forceRefresh, now)
    requires net[0] == Responded(401, body)
    ensures var r := FetchTokenInfo(s, forceRefresh, now, ClassifyAll(net));
      && r.value.None? && r.requests == 1 && r.delays == []
      && r.state == s.(isAuthenticated := false, isLoading := false, error := None)
  {
    var replies := ClassifyAll(net);
    assert replies[0] == Unauthorized;
    LastReplyOfSettle(s, forceRefresh, now, replies);
  }

  /** A successful first reply stores (data, now), resets the counter and returns the data. */
  lemma SuccessRefreshesCache(s: Session, forceRefresh: bool, now: int, replies: seq<Attempt>, data: Option<TokenInfo>)
    requires |replies| >= AttemptBudget(s.retryCount)
    requires !CacheFresh(s, forceRefresh, now)
    requires replies[0] == Succeeded(data)
    ensures var r := FetchTokenInfo(s, forceRefresh, now, replies);
      && r.value == data && r.requests == 1
      && r.state.cache == Cache(data, now) && r.state.retryCount == 0
      && r.state.tokenInfo == data && r.state.error.None?
  {
    LastReplyOfSettle(s, forceRefresh, now, replies);
  }

  /** A run of failures as long as the budget: every retry is taken, the waits
      follow the schedule, and the stale cache (or null) is the answer. */
  lemma RetriesExhausted(s: Session, forceRefresh: bool, now: int, replies: seq<Attempt>)
    requires |replies| >= AttemptBudget(s.retryCount)
    requires s.retryCount <= MaxRetries
    requires !CacheFresh(s, forceRefresh, now)
    requires forall i :: 0 <= i < AttemptBudget(s.retryCount) ==> replies[i].Failed?
    ensures var r := FetchTokenInfo(s, forceRefresh, now, replies);
      && r.requests == 1 + MaxRetries - s.retryCount
      && r.delays == BackoffSchedule(s.retryCount)
      && r.value == s.cache.data
      && r.state == FallbackState(s, replies[MaxRetries - s.retryCount].message)
  {
    var r := FetchTokenInfo(s, forceRefresh, now, replies);
    assert LastReply(s, forceRefresh, now, replies).Failed?;
    EndsInFailure(s, forceRefresh, now, replies);
  }

  /** From a fresh counter, four failures in a row wait 1000, 2000 and 4000 ms. */
  lemma FreshCounterBacksOffThreeTimes(s: Session, forceRefresh: bool, now: int, replies: seq<Attempt>)
    requires |replies| >= 4 && s.retryCount == 0
    requires !CacheFresh(s, forceRefresh, now)
    requires forall i :: 0 <= i < 4 ==> replies[i].Failed?
    ensures var r := FetchTokenInfo(s, forceRefresh, now, replies);
      r.requests == 4 && r.delays == [1000, 2000, 4000] && r.value == s.cache.data
  {
    RetriesExhausted(s, forceRefresh, now, replies);
    BackoffFromZero();
  }

  /** The counter is not reset when retries run out, so after one exhausted
      cycle the next failing call gives up after a single request, where a
      fresh counter would have tried four times. */
  lemma ExhaustedCounterDoesNotRetry(
    s: Session, forceRefresh: bool, now: int, replies: seq<Attempt>,
    later: int, replies2: seq<Attempt>)
    requires |replies| >= AttemptBudget(s.retryCount) && s.retryCount <= MaxRetries
    requires !CacheFresh(s, forceRefresh, now)
    requires forall i :: 0 <= i < AttemptBudget(s.retryCount) ==> replies[i].Failed?
    requires |replies2| >= 1 && replies2[0].Failed?
    requires !CacheFresh(FetchTokenInfo(s, forceRefresh, now, replies).state, forceRefresh, later)
    ensures FetchTokenInfo(s, forceRefresh, now, replies).state.retryCount == MaxRetries
    ensures var t := FetchTokenInfo(s, forceRefresh, now, replies).state;
      var r2 := FetchTokenInfo(t, forceRefresh, later, replies2);
      && r2.requests == 1 && r2.delays == []
      && r2.value == s.cache.data && r2.state.retryCount == MaxRetries
  {
    RetriesExhausted(s, forceRefresh, now, replies);
    var t := FetchTokenInfo(s, forceRefresh, now, replies).state;
    LastReplyOfSettle(t, forceRefresh, later, replies2);
  }

  // ---- the retry as an explicit bounded loop ----

  /** The report of a call that has already made `done` failed requests,
      waiting `waits` between them, before the call that produced `rest`. */
  function Prepend(done: nat, waits: seq<nat>, rest: FetchReport): FetchReport {
    if done == 0 then rest
    else FetchReport(rest.state.(isLoading := false), rest.value, done + rest.requests, waits + rest.delays)
  }

  /** The loop invariant: finishing the call from the loop's current state,
      after the `done` failed requests so far, gives `goal`. */
  predicate Resumes(goal: FetchReport, forceRefresh: bool, replies: seq<Attempt>,
                    done: nat, waits: seq<nat>, current: Session, clock: int)
  {
    && done <= |replies| && |waits| == done
    && |replies| - done >= AttemptBudget(current.retryCount)
    && goal == Prepend(done, waits, FetchTokenInfo(current, forceRefresh, clock, replies[done..]))
  }

  /** fetchTokenInfo with its self-call unrolled into a loop; it computes
      exactly what the recursive definition does. */
  method FetchTokenInfoIterative(s: Session, forceRefresh: bool, now: int, replies: seq<Attempt>)
    returns (r: FetchReport)
    requires |replies| >= AttemptBudget(s.retryCount)
    ensures r == FetchTokenInfo(s, forceRefresh, now, replies)
  {
    ghost var goal := FetchTokenInfo(s, forceRefresh, now, replies);
    var current := s;
    var clock := now;
    var done := 0;
    var waits: seq<nat> := [];
    assert replies[0..] == replies;
    while true
      invariant Resumes(goal, forceRefresh, replies, done, waits, current, clock)
      decreases AttemptBudget(current.retryCount)
    {
      if CacheFresh(current, forceRefresh, clock) {
        CacheHitServesCache(current, forceRefresh, clock, replies[done..]);
        return Prepend(done, waits, FetchReport(current.(tokenInfo := current.cache.data), current.cache.data, 0, []));
      }
      var reply := replies[done];
      if !Retries(current, reply) {
        ResumeFinishes(goal, forceRefresh, replies, done, waits, current, clock);
        return Prepend(done, waits, Settle(current, clock, reply));
      }
      var delay := BackoffDelay(current.retryCount + 1);
      ResumeRetries(goal, forceRefresh, replies, done, waits, current, clock);
      current, clock, done, waits := RetryState(current, reply.message), clock + delay, done + 1, waits + [delay];
    }
  }

  /** The loop's exit without a retry returns the goal. */
  lemma ResumeFinishes(goal: FetchReport, forceRefresh: bool, replies: seq<Attempt>,
                       done: nat, waits: seq<nat>, current: Session, clock: int)
    requires Resumes(goal, forceRefresh, replies, done, waits, current, clock)
    requires !CacheFresh(current, forceRefresh, clock)
    requires done < |replies| && !Retries(current, replies[done])
    ensures goal == Prepend(done, waits, Settle(current, clock, replies[done]))
  {
    assert replies[done..][0] == replies[done];
    FetchUnfolds(current, forceRefresh, clock, replies[done..]);
  }

  /** A retry carries the loop invariant to the next iteration. */
  lemma ResumeRetries(goal: FetchReport, forceRefresh: bool, replies: seq<Attempt>,
                      done: nat, waits: seq<nat>, current: Session, clock: int)
    requires Resumes(goal, forceRefresh, replies, done, waits, current, clock)
    requires !CacheFresh(current, forceRefresh, clock)
    requires done < |replies| && Retries(current, replies[done])
    ensures var next := RetryState(current, replies[done].message);
      var delay := BackoffDelay(current.retryCount + 1);
      && AttemptBudget(next.retryCount) < AttemptBudget(current.retryCount)
      && Resumes(goal, forceRefresh, replies, done + 1, waits + [delay], next, clock + delay)
  {
    var tail := replies[done..];
    assert tail[0] == replies[done];
    assert tail[1..] == replies[done + 1..];
    var next := RetryState(current, replies[done].message);
    var delay := BackoffDelay(current.retryCount + 1);
    var rest := FetchTokenInfo(next, forceRefresh, clock + delay, replies[done + 1..]);
    assert FetchTokenInfo(current, forceRefresh, clock, tail) == AfterRetry(delay, rest) by {
      FetchUnfolds(current, forceRefresh, clock, tail);
    }
    PrependAfterRetry(done, waits, delay, rest);
  }

  lemma PrependAfterRetry(done: nat, waits: seq<nat>, delay: nat, rest: FetchReport)
    requires |waits| == done
    ensures Prepend(done, waits, AfterRetry(delay, rest)) == Prepend(done + 1, waits + [delay], rest)
  {
    assert waits + ([delay] + rest.delays) == (waits + [delay]) + rest.delays;
    if done == 0 {
      assert waits + [delay] == [delay];
    }
  }

  // ---- the periodic refresh ----

  lemma InitialStateValid()
    ensures Valid(InitialState)
  {
  }

  /** What startTokenUpdates did: the hook after it and the forced fetch it made. */
  datatype StartReport = StartReport(state: TokenState, fetch: FetchReport)

  /** startTokenUpdates: authenticate, wait the warm-up delay, force a fetch,
      then replace whatever refresh interval was running with a new one. */
  function StartTokenUpdates(s: TokenState, now: int, replies: seq<Attempt>): (r: StartReport)
    requires Valid(s)
    requires |replies| >= AttemptBudget(s.session.retryCount)
    ensures r.fetch == FetchTokenInfo(s.session.(isAuthenticated := true, isLoading := true), true, now + InitialFetchDelay, replies)
    ensures r.fetch.requests >= 1
    ensures Valid(r.state) && !r.state.session.isLoading
    ensures r.state.updateInterval.Some?
    ensures r.state.timers.armed == {r.state.updateInterval.value}
    ensures r.state.updateInterval.value !in s.timers.armed
    ensures r.state.session == r.fetch.state.(isLoading := false)
  {
    var begun := s.session.(isAuthenticated := true, isLoading := true);
    var fetched := FetchTokenInfo(begun, true, now + InitialFetchDelay, replies);
    FetchSettles(begun, true, now + InitialFetchDelay, replies);
    var (id, timers) := Timers.Rearm(s.timers, s.updateInterval);
    StartReport(TokenState(fetched.state.(isLoading := false), Some(id), timers), fetched)
  }

  /** A 401 on the start-up fetch leaves the session unauthenticated while the
      refresh interval is armed anyway. */
  lemma UnauthorizedStartStillArmsInterval(s: TokenState, now: int, replies: seq<Attempt>)
    requires Valid(s)
    requires |replies| >= AttemptBudget(s.session.retryCount)
    requires replies[0] == Unauthorized
    ensures var r := StartTokenUpdates(s, now, replies);
      && !r.state.session.isAuthenticated && r.fetch.value.None?
      && r.state.updateInterval.Some? && r.state.updateInterval.value in r.state.timers.armed
  {
  }

  /** A start whose fetch succeeds ends authenticated, with the new data cached. */
  lemma SuccessfulStartAuthenticates(s: TokenState, now: int, replies: seq<Attempt>, data: Option<TokenInfo>)
    requires Valid(s)
    requires |replies| >= AttemptBudget(s.session.retryCount)
    requires replies[0] == Succeeded(data)
    ensures var r := StartTokenUpdates(s, now, replies);
      && r.state.session.isAuthenticated && r.fetch.value == data
      && r.state.session.cache == Cache(data, now + InitialFetchDelay) && r.state.session.retryCount == 0
  {
  }

  /** One firing of the refresh interval: a cache-first fetch. The interval
      itself stays armed. */
  function RefreshTick(s: TokenState, now: int, replies: seq<Attempt>): (r: TokenState)
    requires Valid(s)
    requires |replies| >= AttemptBudget(s.session.retryCount)
    ensures Valid(r)
    ensures r.updateInterval == s.updateInterval && r.timers == s.timers
    ensures CacheFresh(s.session, false, now) ==> r.session == s.session.(tokenInfo := s.session.cache.data)
    ensures !CacheFresh(s.session, false, now) ==> r.session == FetchTokenInfo(s.session, false, now, replies).state
  {
    FetchSettles(s.session, false, now, replies);
    s.(session := FetchTokenInfo(s.session, false, now, replies).state)
  }

  /** stopTokenUpdates: unauthenticate, disarm the interval, forget tokenInfo.
      The cache is kept. */
  function StopTokenUpdates(s: TokenState): (r: TokenState)
    requires Valid(s)
    ensures Valid(r)
    ensures !r.session.isAuthenticated && r.session.tokenInfo.None?
    ensures r.updateInterval.None? && r.timers.armed == {}
    ensures r.session.cache == s.session.cache && r.session.retryCount == s.session.retryCount
    ensures r.session.error == s.session.error
    ensures r.session == s.session.(isAuthenticated := false, tokenInfo := None)
  {
    var timers := if s.updateInterval.Some? then Timers.Clear(s.timers, s.updateInterval.value) else s.timers;
    TokenState(s.session.(isAuthenticated := false, tokenInfo := None), None, timers)
  }

  /** Because stopping keeps the cache, a cache-first fetch soon after a stop
      serves the old data again without asking the server. */
  lemma StopKeepsCacheServing(s: TokenState, now: int, replies: seq<Attempt>)
    requires Valid(s)
    requires |replies| >= AttemptBudget(s.session.retryCount)
    requires s.session.cache.data.Some? && now - s.session.cache.timestamp < CacheDuration
    ensures var r := FetchTokenInfo(StopTokenUpdates(s).session, false, now, replies);
      r.requests == 0 && r.value == s.session.cache.data && r.state.tokenInfo == s.session.cache.data
  {
  }

  lemma StopIsIdempotent(s: TokenState)
    requires Valid(s)
    ensures StopTokenUpdates(StopTokenUpdates(s)) == StopTokenUpdates(s)
  {
  }
}

=== FILE: types.dfy ===
/** Shared value types of the front end: optional values, thrown errors, chat
    messages, the opaque token payload and uploaded files. */
module Types {

  /** A value that may be absent (`null`/`undefined` in the source). */
  datatype Option<+T> = None | Some(value: T)

  /** A thrown `Error`, reduced to the one field the code inspects. */
  datatype Error = Error(message: string)

  /** The outcome of an async call: the resolved value or the rejection. */
  datatype Result<+T> = Ok(value: T) | Err(error: Error)

  /** The `type` field of a chat message: 'user' | 'bot' | 'error'. */
  datatype MessageType = User | Bot | ErrorMessage

  datatype Message = Message(content: string, kind: MessageType, timestamp: string)

  /** The token/usage record returned by `/user/tokens`; its shape belongs to the server. */
  datatype TokenInfo = TokenInfo(payload: string)

  /** A browser `File` as far as the client looks at it. */
  datatype VideoFile = VideoFile(name: string, mimeType: string)
}

=== FILE: validation.dfy ===
/** The two input validators of the client. */
module Validation {
  import opened Types
  import opened Strings

  const VideoPrefix := "video/"

  /** A file is accepted as a video iff its MIME type starts with "video/". */
  function ValidateVideoFile(file: VideoFile): (valid: bool)
    ensures valid <==> |file.mimeType| >= 6 && file.mimeType == "video/" + file.mimeType[6..]
  {
    StartsWith(file.mimeType, VideoPrefix)
  }

  /** Every subtype under "video/" is accepted, whatever the file name. */
  lemma VideoAcceptsEverySubtype(name: string, subtype: string)
    ensures ValidateVideoFile(VideoFile(name, "video/" + subtype))
  {
    assert ("video/" + subtype)[..6] == "video/";
  }

  /** The prefix test is case-sensitive and needs the slash. */
  lemma VideoPrefixIsExact(name: string)
    ensures !ValidateVideoFile(VideoFile(name, "VIDEO/mp4"))
    ensures !ValidateVideoFile(VideoFile(name, "video"))
    ensures !ValidateVideoFile(VideoFile(name, "audio/video"))
    ensures ValidateVideoFile(VideoFile(name, "video/mp4"))
  {
    assert "VIDEO/mp4"[0] != "video/"[0];
    assert "audio/video"[0] != "video/"[0];
    VideoAcceptsEverySubtype(name, "mp4");
    assert "video/" + "mp4" == "video/mp4";
  }

  /** A title is accepted iff `trim()` leaves something, that is, iff it
      has a character other than whitespace. */
  function ValidateConversationTitle(title: string): (valid: bool)
    ensures valid <==> HasVisible(title)
    ensures title == [] ==> !valid
  {
    |Trim(title)| > 0
  }

  /** Leading and trailing whitespace never change the verdict. */
  lemma TitleVerdictIgnoresPadding(lead: string, title: string, trail: string)
    requires AllWhitespace(lead) && AllWhitespace(trail)
    ensures ValidateConversationTitle(lead + title + trail) == ValidateConversationTitle(title)
  {
    TrimIgnoresPadding(lead, title, trail);
  }

  lemma WhitespaceTitlesRejected(title: string)
    requires AllWhitespace(title)
    ensures !ValidateConversationTitle(title)
  {
  }
}
